=== FILE: README.md ===
# ToDoList core in Dafny

A model of the logic of the ToDoList iOS app. It covers:

- the Core Data task store (`CoreDataManager`);
- the two view models that sit on it (`ToDoViewModel` with its Combine bindings and API sync, and `TaskViewModel`);
- the JSON record of the remote task feed (`TaskModel`, `TaskResponse`);
- the attributed-text formatters of the list cell (`TextFormatterService`) and of the editor screen (`TaskViewController`);
- the in-memory store of the unit tests (`MockCoreDataManager`).

Modules follow the Swift files:

| module | file | models |
|---|---|---|
| `Wrappers` | wrappers.dfy | `Option` and `Result` |
| `Characters` | characters.dfy | the decimal digit class shared by the count label and the date pattern |
| `TaskModel` | task_model.dfy | `TaskModel` and `TaskResponse` as JSON values, with the synthesised coding keys, decoder and encoder |
| `CoreDataManager` | core_data_manager.dfy | the managed-object context as a value (`Store`): add, fetch, delete, update, existence check, import of an API record |
| `SearchFilter` | search_filter.dfy | the case-insensitive search of `ToDoViewModel` |
| `ToDoViewModel` | todo_view_model.dfy | the published state, the bindings, the mutations and `syncTasksFromAPI` |
| `TaskViewModel` | task_view_model.dfy | the older view model, which patches its array locally on removal |
| `MockStore` | mock_store.dfy | `MockCoreDataManager`, its four XCTest cases, and how it relates to the store |
| `Attributed` | attributed.dfy | attributed strings as lists of styled segments |
| `TextFormatterService` | text_formatter_service.dfy | `formatTaskText` and `formatDescriptionText`, including the date pattern `\b\d{2}\.\d{2}\.\d{4}\b` |
| `TaskViewController` | task_view_controller.dfy | `backButtonTapped`, `formatTextView` and `formatDatesInText` |

**Persistence faults.** The store can fail in three ways, and a `Faults` value says which failures happen during one public call:

- A failed fetch returns `[]`.
- A failed count makes `isTaskExists` answer `false`.
- A failed save is logged and swallowed. The context keeps its changes.

**Effects.** Every `ToDoViewModel` mutation returns the list of store calls it made (`StoreCall`). This lets the contracts state that each mutation ends with exactly one reload. `TaskViewModel` operations return only the new view model; their contracts speak of its store and array directly.

**Parameters for what the model cannot see.** The network result of `TaskService.fetchTodos` is the `fetched` parameter of the sync. The date check `isValidDate` (a `DateFormatter` with format `dd.MM.yyyy`) is the function parameter `isValidDate`. `Date()` is the `creationDate` / `newDate` parameter.

**Creation dates.**

- `addTaskFromAPI` does not set a creation date (CoreDataManager.swift:86-92), so an imported task has none.
- `ToDoViewModel` calls date-aware `addTask(taskName:isCompleted:creationDate:)` and `updateTask(task:with:newDate:)` overloads. `CoreDataManager` as shown declares only the two-argument forms. The model has one operation per store action, with an optional date:
  - the two-argument forms pass `None`;
  - the view model passes `Some(date)`.

## Model

| member | source | states |
|---|---|---|
| TaskModel.KeyFromName | ToDoList/Model/TaskModel.swift:16-21 | a JSON key selects exactly the coding key whose raw value it is, and nothing otherwise |
| TaskModel.CompletedKeyMapping | ToDoList/Model/TaskModel.swift:16-21 | "completed" selects the flag, the property name "isCompleted" selects nothing, and no two coding keys share a name |
| TaskModel.DecodeInt | ToDoList/Model/TaskModel.swift:11-14 | an integer field decodes exactly when its key holds a number in the Int64 range; a missing key is reported as KeyNotFound |
| TaskModel.DecodeString | ToDoList/Model/TaskModel.swift:12 | a string field decodes exactly when its key holds a string; a missing key is reported as KeyNotFound |
| TaskModel.DecodeBool | ToDoList/Model/TaskModel.swift:13 | a Bool field decodes exactly when its key holds a Bool; a missing key is reported as KeyNotFound |
| TaskModel.DecodeTaskModel | ToDoList/Model/TaskModel.swift:10-22 | a decoded record's four fields are the values under "id", "todo", "completed" and "userId"; a non-object, or an object without "id", fails with that error |
| TaskModel.DecodeFromMembers | ToDoList/Model/TaskModel.swift:10-22 | an object whose four keys hold a record's fields decodes to that record, whatever other members it has |
| TaskModel.EncodeTaskModel | ToDoList/Model/TaskModel.swift:10-22 | the encoded object has four members, stores the flag under "completed", and decodes back to the same record |
| TaskModel.DecodeTaskModels | ToDoList/Model/TaskModel.swift:25 | a decoded array has one record per element, and each record is that element decoded |
| TaskModel.TaskModelsRoundTrip | ToDoList/Model/TaskModel.swift:25 | an encoded array of records decodes back to the same records in the same order |
| TaskModel.DecodeTaskResponse | ToDoList/Model/TaskModel.swift:24-29 | a decoded response came from an object whose "todos" array decodes to its records and whose "total", "skip" and "limit" are its three counters; a non-object fails with NotAnObject |
| TaskModel.DecodeResponseFromMembers | ToDoList/Model/TaskModel.swift:24-29 | an object holding a decodable "todos" array and the three counters decodes to the response they make up |
| TaskModel.EncodeTaskResponse | ToDoList/Model/TaskModel.swift:24-29 | an encoded response decodes back to the same response |
| CoreDataManager.SaveContext | ToDoList/CoreData/CoreDataManager.swift:32-39 | saving never changes the context's objects; with no changes, or when the save throws, nothing changes; a successful save leaves no pending changes |
| CoreDataManager.AddTask | ToDoList/CoreData/CoreDataManager.swift:44-49 | exactly one object is added after the existing ones, with the given name, flag and date and no external id; store validity is preserved |
| CoreDataManager.FetchTasks | ToDoList/CoreData/CoreDataManager.swift:51-59 | a fetch returns every object of the context; a failed fetch returns the empty array |
| CoreDataManager.DeleteTask | ToDoList/CoreData/CoreDataManager.swift:61-64 | afterwards the context holds exactly the objects other than the deleted one; validity is preserved |
| CoreDataManager.DeleteRemovesOne | ToDoList/CoreData/CoreDataManager.swift:61-64 | deleting the object at position i removes that position and nothing else, so the count drops by one |
| CoreDataManager.UpdateTask | ToDoList/CoreData/CoreDataManager.swift:66-69 | only the updated object changes: it takes the new name, keeps its identity, external id and flag, keeps its date when no new date is given and takes the new date otherwise; no object is added or removed |
| CoreDataManager.CountWithId | ToDoList/CoreData/CoreDataManager.swift:73-79 | the count is positive exactly when some object carries the id |
| CoreDataManager.IsTaskExists | ToDoList/CoreData/CoreDataManager.swift:73-84 | true exactly when the count succeeds and some object carries the external id; a failed count answers false |
| CoreDataManager.AddTaskFromAPI | ToDoList/CoreData/CoreDataManager.swift:86-92 | exactly one object is added, carrying the record's id, text and completion flag and no creation date; validity is preserved |
| CoreDataManager.ImportIgnoresUserId | ToDoList/CoreData/CoreDataManager.swift:86-92 | an import does not depend on the record's userId |
| CoreDataManager.LocalTaskNeverMatches | ToDoList/CoreData/CoreDataManager.swift:73-79 | a task created locally never makes an existence query for an external id succeed |
| SearchFilter.LowerChar | ToDoList/ViewModel/ToDoViewModel.swift:90 | a lowered character is never a capital; a capital becomes its own small letter, which UpperChar maps back to it; any other character is unchanged |
| SearchFilter.Lower | ToDoList/ViewModel/ToDoViewModel.swift:90 | lowering keeps the length and lowers each character in place |
| SearchFilter.LowerIdempotent | ToDoList/ViewModel/ToDoViewModel.swift:90 | lowering twice is lowering once |
| SearchFilter.Contains | ToDoList/ViewModel/ToDoViewModel.swift:90 | true exactly when the needle occurs at some position of the text |
| SearchFilter.Select | ToDoList/ViewModel/ToDoViewModel.swift:89-91 | a task is kept exactly when it has a name containing the search text, ignoring case |
| SearchFilter.Filter | ToDoList/ViewModel/ToDoViewModel.swift:85-94 | an empty search keeps the whole list; otherwise exactly the matching tasks are kept, and each has a name |
| SearchFilter.SelectAppend | ToDoList/ViewModel/ToDoViewModel.swift:89-91 | filtering a concatenation is concatenating the filtered parts, so order is kept |
| SearchFilter.FilterSplit | ToDoList/ViewModel/ToDoViewModel.swift:85-94 | the filter of a list is the filter of any prefix followed by the filter of the rest |
| SearchFilter.SelectIdempotent | ToDoList/ViewModel/ToDoViewModel.swift:89-91 | filtering a filtered list again changes nothing |
| SearchFilter.FilterIdempotent | ToDoList/ViewModel/ToDoViewModel.swift:85-94 | applying the search binding twice is applying it once |
| SearchFilter.SelectCaseInsensitive | ToDoList/ViewModel/ToDoViewModel.swift:90 | two search texts that agree once lowered select the same tasks |
| SearchFilter.FilterCaseInsensitive | ToDoList/ViewModel/ToDoViewModel.swift:85-94 | the binding gives the same list for search texts differing only in case |
| SearchFilter.BuyMilkExample | ToDoList/ViewModel/ToDoViewModel.swift:88-91 | "buy" finds "Buy milk", not "Clean", and never a task without a name |
| ToDoViewModel.DecimalString | ToDoList/ViewModel/ToDoViewModel.swift:81 | the rendering of a count is all digits, has no leading zero, and reads back as the count |
| ToDoViewModel.CountText | ToDoList/ViewModel/ToDoViewModel.swift:81 | the count label is a run of digits followed by " задач", with no leading zero unless the count is 0 |
| ToDoViewModel.CountTextRoundTrip | ToDoList/ViewModel/ToDoViewModel.swift:81 | the count can be read back from its label |
| ToDoViewModel.Publish | ToDoList/ViewModel/ToDoViewModel.swift:79-95 | after tasks are published, the count label and the filtered list agree with them and the current search text |
| ToDoViewModel.LoadTasks | ToDoList/ViewModel/ToDoViewModel.swift:97-99 | a reload publishes what the store fetch returns, with one fetch call and the bindings holding |
| ToDoViewModel.Init | ToDoList/ViewModel/ToDoViewModel.swift:26-29 | a new view model has an empty search, holds what the store fetch returned, shows every stored task when the fetch succeeds, and made one reload |
| ToDoViewModel.AddTask | ToDoList/ViewModel/ToDoViewModel.swift:33-36 | one store add followed by one reload; the store keeps its earlier objects in order and gains one object with the given name, flag and creation date and no external id, which the reloaded list ends with |
| ToDoViewModel.RemoveTask | ToDoList/ViewModel/ToDoViewModel.swift:38-42 | deletes exactly the task at the index, then reloads once; the other tasks stay in the store |
| ToDoViewModel.RemoveTaskDropsPosition | ToDoList/ViewModel/ToDoViewModel.swift:38-42 | with a loaded list, removal drops that position from the published list and keeps the others in order |
| ToDoViewModel.UpdateTask | ToDoList/ViewModel/ToDoViewModel.swift:44-48 | the object of the task at the index becomes that object with the new name and the new date, keeping its identity, external id and flag; then one reload; every other object is unchanged |
| ToDoViewModel.UpdateSearchText | ToDoList/ViewModel/ToDoViewModel.swift:50-52 | a new search text keeps the bindings holding and does not touch the store or the tasks; the empty text shows every task |
| ToDoViewModel.MergeFeed | ToDoList/ViewModel/ToDoViewModel.swift:60-64 | the loop only appends to the store, never reloads, and keeps the store valid |
| ToDoViewModel.FirstWithId | ToDoList/ViewModel/ToDoViewModel.swift:60 | the record found for an id is the feed's first record with that id, and one is found exactly when the feed has the id |
| ToDoViewModel.MergeImportsFirstRecord | ToDoList/ViewModel/ToDoViewModel.swift:60-64 | with truthful existence queries, an id absent from the store and present in the feed ends up on exactly one task, which holds the text and flag of the feed's first record with that id and no date; later repeats are skipped |
| ToDoViewModel.MergeAppendsOnlyImports | ToDoList/ViewModel/ToDoViewModel.swift:60-64 | whatever fails, every task the loop appends after the existing ones is imported from some record of the feed (its id, text and flag, no date); nothing else is written |
| ToDoViewModel.SyncAppendsOnlyImports | ToDoList/ViewModel/ToDoViewModel.swift:54-75 | after a successful sync the store is the prior objects followed only by tasks imported from feed records |
| ToDoViewModel.ImportedStays | ToDoList/ViewModel/ToDoViewModel.swift:60-64 | once an id is carried by one task, the rest of the loop neither adds another carrier nor changes that task |
| ToDoViewModel.SyncImportsFirstRecord | ToDoList/ViewModel/ToDoViewModel.swift:54-75 | the same for the whole sync: a new id's one task is imported from the feed's first record with that id |
| ToDoViewModel.MergeChecksEveryRecord | ToDoList/ViewModel/ToDoViewModel.swift:60-64 | the loop makes one existence query per record, with the record's id, in feed order |
| ToDoViewModel.SyncTasksFromAPI | ToDoList/ViewModel/ToDoViewModel.swift:54-75 | a fetch error is passed on with no store call; on success every prior task is kept, there is one reload at the end, and the bindings hold |
| ToDoViewModel.MergeCount | ToDoList/ViewModel/ToDoViewModel.swift:60-64 | after the loop, an id absent before and present in the feed is carried by exactly one task, however often the feed repeats it; other counts are unchanged |
| ToDoViewModel.ImportCount | ToDoList/ViewModel/ToDoViewModel.swift:61-62 | one import adds one task with the record's id and no other |
| ToDoViewModel.MergeCoversFeed | ToDoList/ViewModel/ToDoViewModel.swift:60-64 | after the loop every record's id is carried by some task |
| ToDoViewModel.MergeKnownFeed | ToDoList/ViewModel/ToDoViewModel.swift:60-64 | a feed whose ids are all stored changes nothing, and the loop only queries |
| ToDoViewModel.SyncIdempotent | ToDoList/ViewModel/ToDoViewModel.swift:54-75 | syncing the same feed a second time leaves the view model as the first sync left it, making only queries and the reload |
| ToDoViewModel.SyncKeepsExternalIdsUnique | ToDoList/ViewModel/ToDoViewModel.swift:60-64 | if no external id was carried twice before the sync, none is after it |
| ToDoViewModel.MergeWithFailingCount | ToDoList/ViewModel/ToDoViewModel.swift:60-64 | when every existence query fails, every record is imported, duplicates included |
| ToDoViewModel.EmptyStoreScenario | ToDoList/ViewModel/ToDoViewModel.swift:54-66 | syncing two records into an empty store publishes two tasks in feed order, with the feed's ids, texts and flags |
| ToDoViewModel.InsertOnlyScenario | ToDoList/ViewModel/ToDoViewModel.swift:60-64 | a record whose id is already stored does not overwrite the stored task |
| TaskViewModel.Init | ToDoList/ViewModel/TaskViewModel.swift:11 | the array starts as the store's objects, or empty when the fetch fails |
| TaskViewModel.AddTask | ToDoList/ViewModel/TaskViewModel.swift:13-17 | one task is added after the others, with the given name and flag, no external id and no creation date (the two-argument store call), and the array is refetched |
| TaskViewModel.RemoveTask | ToDoList/ViewModel/TaskViewModel.swift:19-23 | the array loses exactly the given position, and the store loses exactly that task |
| TaskViewModel.LocalPatchMatchesRefetch | ToDoList/ViewModel/TaskViewModel.swift:19-23 | when the array mirrors a valid store, patching it locally gives what a refetch would |
| TaskViewModel.StaleArrayDiverges | ToDoList/ViewModel/TaskViewModel.swift:11-23 | for example, when the array lists only the first of the store's two tasks, removing position 0 empties the array while the store still holds the second task |
| TaskViewModel.UpdateTask | ToDoList/ViewModel/TaskViewModel.swift:25-29 | renames exactly the task at the index, then refetches; no task is added or removed |
| MockStore.AddTask | ToDoListTests/ToDoListTests.swift:25-29 | the mock appends exactly the given task and records the save |
| MockStore.FetchInInsertionOrder | ToDoListTests/ToDoListTests.swift:25-33 | `fetchTasks` returns the records already held followed by the records added since, in the order they were added |
| MockStore.DeleteTask | ToDoListTests/ToDoListTests.swift:35-38 | the mock keeps exactly the tasks with a different id and records the delete |
| MockStore.FirstIndex | ToDoListTests/ToDoListTests.swift:42 | the result is the first position with the id, or none when no task has it |
| MockStore.UpdateTask | ToDoListTests/ToDoListTests.swift:40-45 | only the first task with the id is renamed; with no such task nothing changes |
| MockStore.RemoveAllUnique | ToDoListTests/ToDoListTests.swift:35-38 | with unique ids, deleting a stored task removes exactly one |
| MockStore.RemoveAllAbsent | ToDoListTests/ToDoListTests.swift:35-38 | deleting an id no task carries changes nothing |
| MockStore.TestAddTask | ToDoListTests/ToDoListTests.swift:62-73 | the assertions of `testAddTask` hold |
| MockStore.TestFetchTasks | ToDoListTests/ToDoListTests.swift:75-84 | the assertions of `testFetchTasks` hold |
| MockStore.TestDeleteTask | ToDoListTests/ToDoListTests.swift:86-97 | the assertions of `testDeleteTask` hold |
| MockStore.TestUpdateTask | ToDoListTests/ToDoListTests.swift:99-108 | the assertions of `testUpdateTask` hold |
| MockStore.AddAgrees | ToDoListTests/ToDoListTests.swift:25-29 | adding to the store and adding to the mock under the new object's identity give the same tasks |
| MockStore.DeleteAgrees | ToDoListTests/ToDoListTests.swift:35-38 | deleting from the store and removing the id from the mock give the same tasks |
| MockStore.UpdateAgrees | ToDoListTests/ToDoListTests.swift:40-45 | with unique identities, renaming in the store and in the mock give the same tasks |
| Attributed.TextAppend | ToDoList/Resources/TextFormatterService.swift:24-50 | the text of appended attributed strings is the concatenation of their texts |
| Attributed.StyleAtAppend | ToDoList/Resources/TextFormatterService.swift:24-50 | in appended attributed strings each character keeps the style it had in its part |
| Attributed.TitledStyles | ToDoList/Resources/TextFormatterService.swift:40-48 | in title + newline + rest, title characters have the title's style, the newline has none, and the rest keeps its own styles |
| TextFormatterService.NewlineIndex | ToDoList/Resources/TextFormatterService.swift:20 | the result is the position of the first newline, or none when there is none |
| TextFormatterService.Components | ToDoList/Resources/TextFormatterService.swift:20 | the pieces contain no newline and join back with newlines to the text |
| TextFormatterService.SplitTitle | ToDoList/Resources/TextFormatterService.swift:20-22 | the title has no newline; with a newline, the text is title, newline, description; without one, the whole text is the title |
| TextFormatterService.DatesDoNotOverlap | ToDoList/Resources/TextFormatterService.swift:63-64 | two matches of the date pattern never overlap, so a left-to-right scan finds them all |
| TextFormatterService.NextDate | ToDoList/Resources/TextFormatterService.swift:63-64 | the next match position at or after i, with no match in between |
| TextFormatterService.Highlight | ToDoList/Resources/TextFormatterService.swift:53-74 | the highlighted description has the same text as the input |
| TextFormatterService.HighlightStyles | ToDoList/Resources/TextFormatterService.swift:62-72 | an open task's description character is greyed exactly when it lies inside a date match, and is white otherwise |
| TextFormatterService.FormatDescriptionText | ToDoList/Resources/TextFormatterService.swift:53-74 | formatting the description never changes its text |
| TextFormatterService.DescriptionStyles | ToDoList/Resources/TextFormatterService.swift:53-74 | system 14 throughout; greyed everywhere when completed, otherwise exactly inside date matches |
| TextFormatterService.FormatTaskText | ToDoList/Resources/TextFormatterService.swift:19-51 | the cell text is the input, except when the input's only newline is its last character: then that newline is dropped (the title is shown with an empty description) |
| TextFormatterService.ShownText | ToDoList/Resources/TextFormatterService.swift:20-22 | the title alone, or the title, a newline and the description when the description is not empty, is the input with a lone trailing newline dropped |
| TextFormatterService.TaskTextStyles | ToDoList/Resources/TextFormatterService.swift:19-51 | only title characters are struck through, and only for a completed task; the title is bold 16, greyed when completed and customWhite otherwise; the newline is unstyled; the description is styled as formatDescriptionText styles it |
| TaskViewController.Trim | ToDoList/ToDoController/TaskViewController.swift:68 | the result has no whitespace or newline at either end, and is empty exactly when the text is all whitespace |
| TaskViewController.TrimSplits | ToDoList/ToDoController/TaskViewController.swift:68 | the text is whitespace, then the trimmed text, then whitespace |
| TaskViewController.TrimUnique | ToDoList/ToDoController/TaskViewController.swift:68 | trimming whitespace + m + whitespace gives m whenever m has no whitespace at its ends |
| TaskViewController.TrimIdempotent | ToDoList/ToDoController/TaskViewController.swift:68 | trimming twice is trimming once |
| TaskViewController.TrimIgnoresPadding | ToDoList/ToDoController/TaskViewController.swift:68 | added leading or trailing whitespace does not change the trimmed text |
| TaskViewController.BackButtonTapped | ToDoList/ToDoController/TaskViewController.swift:66-82 | the screen is always popped; at most one delegate call, none exactly when there is no delegate or the text is all whitespace; an update with the index when editing, a creation otherwise; the text handed over is non-empty and trimmed |
| TaskViewController.BackButtonIgnoresPadding | ToDoList/ToDoController/TaskViewController.swift:66-82 | whitespace around the editor text never changes what the delegate receives |
| TaskViewController.BackButtonStable | ToDoList/ToDoController/TaskViewController.swift:66-82 | an already trimmed, non-empty text reaches the delegate unchanged, as an update or a creation |
| TaskViewController.SplitWords | ToDoList/ToDoController/TaskViewController.swift:161 | every word is non-empty and contains no space, and a text that is a single word splits into just that word |
| TaskViewController.SplitAtSpace | ToDoList/ToDoController/TaskViewController.swift:161 | a space ends a word: the words of a + " " + b are those of a followed by those of b when a has no space, so each word is a maximal run of non-space characters |
| TaskViewController.SplitWordsKeepsCharacters | ToDoList/ToDoController/TaskViewController.swift:161 | the words, glued together, are the text with its spaces deleted |
| TaskViewController.JoinWordsKeepsCharacters | ToDoList/ToDoController/TaskViewController.swift:164-188 | joining words with one space after each loses only those spaces |
| TaskViewController.SplitJoinRoundTrip | ToDoList/ToDoController/TaskViewController.swift:161-188 | splitting the re-joined words gives back the same words |
| TaskViewController.StyleWords | ToDoList/ToDoController/TaskViewController.swift:164-188 | one segment per word: the word and a space, system 16, grey when isValidDate accepts the word and white otherwise |
| TaskViewController.FormatDatesInText | ToDoList/ToDoController/TaskViewController.swift:160-191 | one segment per word, in order, in system 16, greyed when isValidDate accepts the word and customWhite otherwise, never struck through; the output splits into the same words, keeps every non-space character in order, and is already in one-space-after-each-word form |
| TaskViewController.FormatDatesIdempotent | ToDoList/ToDoController/TaskViewController.swift:160-191 | formatting the formatted description again changes nothing |
| TaskViewController.FormatTextView | ToDoList/ToDoController/TaskViewController.swift:121-158 | the first segment is the bold-34 white title with no newline; without a newline the text is unchanged; with one, the title and newline are kept verbatim and the rest is exactly formatDatesInText applied to the text after the newline, so only spaces change there |
| TaskViewController.NewlineAfterTitle | ToDoList/ToDoController/TaskViewController.swift:126 | the first newline after a newline-free title is the one that follows it |
| TaskViewController.FormatTextViewIdempotent | ToDoList/ToDoController/TaskViewController.swift:105-108 | the formatter runs on every edit, and formatting the formatted text again changes nothing |

## Left out

- UIKit layout, fonts as objects, colours as values, view life cycle, navigation-bar setup, `ToDoTableViewCell` and `ToDoViewController`: presentation only. Fonts and colours are the enumerations `Font` and `Color`.
- `textViewDidBeginEditing` sets an empty bold-34 placeholder, which holds no characters.
- `viewDidLoad` copies the task's text into the editor (TaskViewController.swift:41-43). The model does not show that this prefilled text stays unformatted until the first edit calls `formatTextView`.
- The cursor position saved and restored by `formatTextView`: no text depends on it.
- `TaskService.fetchTodos` (URLSession, JSON bytes): the already-decoded result is the `fetched` parameter, and JSON is modelled as a value, not as text.
- JSON forms the feed does not use: the `Json` value has no `null` and only integer numbers, so a record with a null field or a number written with a fraction or an exponent cannot be expressed. How `JSONDecoder` treats those forms for the fields of `TaskModel` is not modelled.
- The Core Data stack: loading, the `fatalError` on a failed load, threads and queues. `viewContext` is used from a background queue in `syncTasksFromAPI`. Two syncs started together could both find an id absent and import it twice; the model runs each call to the end, one at a time.
- Combine: the `Future`, `@Published` and `CurrentValueSubject` machinery. A publication is modelled as the synchronous recomputation of `filteredTasks` and `tasksCountText` (`Publish`).
- Print statements in the error paths.
- Per-query faults: a `Faults` value holds one `countFails` and one `saveFails` flag for a whole public call, so a sync in which some existence queries fail and others succeed (and only part of the feed is duplicated) is not expressed.
- Store order: Core Data returns fetched objects in no promised order; the model returns them in insertion order.
- The default of the `id` attribute for locally created tasks is not visible. Local tasks carry no external id, so they never match `isTaskExists`.
- `NSPredicate(format: "id == %d")` formats an `Int64` with `%d`: the model compares the full value and does not model a truncation.
- `hasChanges`: modelled as a difference between the context's objects and the last saved snapshot.
- SearchFilter.LowerChar: lowers ASCII A–Z and Cyrillic U+0400–U+042F only, not full Unicode case mapping, because that mapping is a table outside the program.
- The date pattern: `\d` is ASCII digits only. A word character for `\b` is an ASCII letter or digit, `_` or a Cyrillic letter (U+0400–U+04FF). ICU's full Unicode classes are not modelled.
- Character counting: `title.count` and the regex's UTF-16 ranges are both counted in `char`s here. Grapheme clusters (for example "\r\n" as one `Character` in `split`) are not distinguished.
- `isValidDate` and its `DateFormatter` (locale, leniency): kept as a function parameter.
- Duplicate JSON keys: `Member` takes the first occurrence; the behaviour of `JSONDecoder` with repeated keys is not modelled.
- TaskModel.DecodeTaskResponse: errors in the counters after "todos" are reported, but the contract only pins down the error for a non-object.

=== FILE: attributed.dfy ===
/**
 Attributed strings as lists of (substring, style) segments. Only the
 attributes the formatters set are modelled: font, foreground colour and
 strikethrough. Positions count characters.
 */
module Attributed {
  import opened Wrappers

  /** The app's named colours (`UIColor.customWhite`, `UIColor.stroke`). */
  datatype Color = CustomWhite | Stroke

  /** The fonts the formatters use. */
  datatype Font = SfProTextBold16 | SfProTextBold34 | System14 | System16

  datatype Style = Style(font: Option<Font>, color: Option<Color>, strikethrough: bool)

  /** The attributes of a string appended without any. */
  const Plain: Style := Style(None, None, false)

  datatype Segment = Segment(text: string, style: Style)

  /** The plain text of an attributed string. */
  function Text(segs: seq<Segment>): string
  {
    if segs == [] then "" else segs[0].text + Text(segs[1..])
  }

  /** The style of the `k`-th character. */
  function StyleAt(segs: seq<Segment>, k: nat): Style
    requires k < |Text(segs)|
  {
    if k < |segs[0].text| then segs[0].style else StyleAt(segs[1..], k - |segs[0].text|)
  }

  lemma {:induction false} TextAppend(a: seq<Segment>, b: seq<Segment>)
    ensures Text(a + b) == Text(a) + Text(b)
  {
    if a == [] {
      assert a + b == b;
    } else {
      assert (a + b)[1..] == a[1..] + b;
      TextAppend(a[1..], b);
    }
  }

  /** Styles of a concatenation come from the part the position falls in. */
  lemma {:induction false} StyleAtAppend(a: seq<Segment>, b: seq<Segment>, k: nat)
    requires k < |Text(a + b)|
    ensures Text(a + b) == Text(a) + Text(b)
    ensures StyleAt(a + b, k) == if k < |Text(a)| then StyleAt(a, k) else StyleAt(b, k - |Text(a)|)
  {
    TextAppend(a, b);
    if a == [] {
      assert a + b == b;
    } else {
      assert (a + b)[1..] == a[1..] + b;
      if k >= |a[0].text| {
        StyleAtAppend(a[1..], b, k - |a[0].text|);
      }
    }
  }

  /** A title segment, an unstyled newline, then more segments: how both formatters lay out a task. */
  function Titled(title: Segment, rest: seq<Segment>): (r: seq<Segment>)
    ensures |r| == |rest| + 2 && r[0] == title && r[1] == Segment("\n", Plain) && r[2..] == rest
    ensures Text(r) == title.text + "\n" + Text(rest)
  {
    var r := [title, Segment("\n", Plain)] + rest;
    assert r[1..][1..] == rest;
    r
  }

  /** The styles of a titled text: the title's, then plain for the newline, then the rest's. */
  lemma TitledStyles(title: Segment, rest: seq<Segment>, k: nat)
    requires k < |Text(Titled(title, rest))|
    ensures k > |title.text| ==> k - |title.text| - 1 < |Text(rest)|
    ensures StyleAt(Titled(title, rest), k)
      == if k < |title.text| then title.style
         else if k == |title.text| then Plain
         else StyleAt(rest, k - |title.text| - 1)
  {
    var r := Titled(title, rest);
    assert r[1..][0] == Segment("\n", Plain) && r[1..][1..] == rest;
    assert Text(r[1..]) == "\n" + Text(rest);
  }
}

=== FILE: characters.dfy ===
/** Character classes shared by the count label and the date pattern. */
module Characters {
  /** An ASCII decimal digit, as both `\d` here and integer interpolation produce. */
  predicate IsDigit(c: char)
  {
    '0' <= c <= '9'
  }
}

=== FILE: core_data_manager.dfy ===
/**
 `CoreDataManager`: the persistence layer. The managed-object context is an
 in-memory sequence of `Task` objects in the order the store yields them,
 next to the snapshot last written to disk. Failures of the persistence
 engine are inputs (`Faults`); the manager absorbs every one of them.
 */
module CoreDataManager {
  import opened Wrappers
  import TaskModel

  /** A timestamp; its calendar meaning plays no part in the model. */
  datatype Date = Date(stamp: int)

  /**
   The `id` attribute of a task. Tasks imported from the feed carry the feed's
   id; tasks created in the app never set it and carry `NoId`, which no
   existence query matches.
   */
  datatype ExternalId = NoId | Id(value: int)

  /** A `Task` managed object; `objectId` stands for its managed-object identity. */
  datatype Task = Task(
    objectId: nat,
    id: ExternalId,
    taskName: Option<string>,
    isCompleted: bool,
    creationDate: Option<Date>)

  /** The view context (`objects`), what the last successful save wrote (`persisted`), and the next fresh identity. */
  datatype Store = Store(objects: seq<Task>, persisted: seq<Task>, nextObjectId: nat)

  /** Which persistence-engine calls fail during one operation. */
  datatype Faults = Faults(fetchFails: bool, countFails: bool, saveFails: bool)

  const NoFaults: Faults := Faults(false, false, false)

  const EmptyStore: Store := Store([], [], 0)

  /** No two objects share an identity. */
  ghost predicate UniqueObjects(objs: seq<Task>)
  {
    forall i, j :: 0 <= i < j < |objs| ==> objs[i].objectId != objs[j].objectId
  }

  /** The store invariant: identities are unique and all below the next fresh one. */
  ghost predicate Valid(s: Store)
  {
    && UniqueObjects(s.objects)
    && forall i :: 0 <= i < |s.objects| ==> s.objects[i].objectId < s.nextObjectId
  }

  /** `context.hasChanges`: the context differs from what was last saved. */
  predicate HasChanges(s: Store)
  {
    s.objects != s.persisted
  }

  /**
   `saveContext`: without pending changes nothing happens; a failing save is
   reported and dropped, so the caller never sees an error.
   */
  function SaveContext(s: Store, saveFails: bool): (r: Store)
    ensures r.objects == s.objects && r.nextObjectId == s.nextObjectId
    ensures !HasChanges(s) ==> r == s
    ensures saveFails ==> r == s
    ensures !saveFails ==> !HasChanges(r)
  {
    if !HasChanges(s) then s
    else if saveFails then s
    else s.(persisted := s.objects)
  }

  /**
   `addTask`: one new object with the given name and flag and no external id.
   `creationDate` is `None` for the two-argument `addTask` declared in
   CoreDataManager.swift and `Some` for the date-aware call in
   ToDoViewModel.swift.
   */
  function AddTask(s: Store, taskName: string, isCompleted: bool, creationDate: Option<Date>, saveFails: bool): (r: Store)
    ensures |r.objects| == |s.objects| + 1 && r.objects[..|s.objects|] == s.objects
    ensures r.objects[|s.objects|].taskName == Some(taskName)
    ensures r.objects[|s.objects|].isCompleted == isCompleted
    ensures r.objects[|s.objects|].id == NoId
    ensures r.objects[|s.objects|].creationDate == creationDate
    ensures Valid(s) ==> Valid(r)
  {
    var t := Task(s.nextObjectId, NoId, Some(taskName), isCompleted, creationDate);
    SaveContext(s.(objects := s.objects + [t], nextObjectId := s.nextObjectId + 1), saveFails)
  }

  /** `fetchTasks`: every object of the context, or nothing when the fetch throws. */
  function FetchTasks(s: Store, fetchFails: bool): (r: seq<Task>)
    ensures !fetchFails ==> r == s.objects
    ensures fetchFails ==> r == []
  {
    if fetchFails then [] else s.objects
  }

  /** `objs` without the object whose identity is `oid`. */
  function Without(objs: seq<Task>, oid: nat): (r: seq<Task>)
    ensures forall t :: t in r <==> t in objs && t.objectId != oid
    ensures |r| <= |objs|
    ensures UniqueObjects(objs) ==> UniqueObjects(r)
  {
    if objs == [] then []
    else if objs[0].objectId == oid then Without(objs[1..], oid)
    else
      var rest := Without(objs[1..], oid);
      UniqueTail(objs);
      [objs[0]] + rest
  }

  /** The tail of a sequence with unique identities is unique and does not repeat the head's identity. */
  lemma UniqueTail(objs: seq<Task>)
    requires objs != []
    ensures UniqueObjects(objs) ==> UniqueObjects(objs[1..])
    ensures UniqueObjects(objs) ==> forall t :: t in objs[1..] ==> t.objectId != objs[0].objectId
  {
    if UniqueObjects(objs) {
      forall t | t in objs[1..] ensures t.objectId != objs[0].objectId {
        var k :| 0 <= k < |objs[1..]| && objs[1..][k] == t;
        assert objs[k + 1] == t;
      }
    }
  }

  /** With unique identities, removing an object by identity removes exactly its position. */
  lemma {:induction false} WithoutAt(objs: seq<Task>, i: nat)
    requires UniqueObjects(objs) && i < |objs|
    ensures Without(objs, objs[i].objectId) == objs[..i] + objs[i + 1..]
    decreases |objs|, 1
  {
    UniqueTail(objs);
    if i == 0 {
      WithoutAbsent(objs[1..], objs[0].objectId);
    } else {
      WithoutStep(objs, i);
    }
  }

  /** The inductive step of `WithoutAt`, for a position past the head. */
  lemma {:induction false} WithoutStep(objs: seq<Task>, i: nat)
    requires UniqueObjects(objs) && 0 < i < |objs|
    ensures Without(objs, objs[i].objectId) == objs[..i] + objs[i + 1..]
    decreases |objs|, 0
  {
    var oid := objs[i].objectId;
    var tail := objs[1..];
    UniqueTail(objs);
    assert tail[i - 1] == objs[i];
    WithoutAt(tail, i - 1);
    calc {
      Without(objs, oid);
      [objs[0]] + Without(tail, oid);
      [objs[0]] + (tail[..i - 1] + tail[i..]);
      { assert tail[..i - 1] == objs[1..i] && tail[i..] == objs[i + 1..]; }
      [objs[0]] + (objs[1..i] + objs[i + 1..]);
      { assert [objs[0]] + objs[1..i] == objs[..i]; }
      objs[..i] + objs[i + 1..];
    }
  }

  /** Removing an identity no object carries changes nothing. */
  lemma {:induction false} WithoutAbsent(objs: seq<Task>, oid: nat)
    requires forall t :: t in objs ==> t.objectId != oid
    ensures Without(objs, oid) == objs
  {
    if objs != [] {
      WithoutAbsent(objs[1..], oid);
      assert [objs[0]] + objs[1..] == objs;
    }
  }

  /** `deleteTask`: the given object leaves the context; every other object stays. */
  function DeleteTask(s: Store, task: Task, saveFails: bool): (r: Store)
    ensures forall t :: t in r.objects <==> t in s.objects && t.objectId != task.objectId
    ensures |r.objects| <= |s.objects|
    ensures Valid(s) ==> Valid(r)
  {
    SaveContext(s.(objects := Without(s.objects, task.objectId)), saveFails)
  }

  /** In a valid store, deleting one of its tasks drops the count by exactly one. */
  lemma DeleteRemovesOne(s: Store, i: nat, saveFails: bool)
    requires Valid(s) && i < |s.objects|
    ensures DeleteTask(s, s.objects[i], saveFails).objects == s.objects[..i] + s.objects[i + 1..]
    ensures |DeleteTask(s, s.objects[i], saveFails).objects| == |s.objects| - 1
  {
    WithoutAt(s.objects, i);
  }

  /** The object `t` after `task.taskName = newName` (and, in the date-aware signature, the new date). */
  function Renamed(t: Task, newName: string, newDate: Option<Date>): Task
  {
    t.(taskName := Some(newName), creationDate := if newDate.Some? then newDate else t.creationDate)
  }

  /** `updateTask`: only the given object's name (and date) change. */
  function UpdateTask(s: Store, task: Task, newName: string, newDate: Option<Date>, saveFails: bool): (r: Store)
    ensures |r.objects| == |s.objects| && r.nextObjectId == s.nextObjectId
    ensures forall i :: 0 <= i < |s.objects| && s.objects[i].objectId != task.objectId ==> r.objects[i] == s.objects[i]
    ensures forall i :: 0 <= i < |s.objects| && s.objects[i].objectId == task.objectId ==>
      && r.objects[i].taskName == Some(newName)
      && r.objects[i].objectId == s.objects[i].objectId
      && r.objects[i].id == s.objects[i].id
      && r.objects[i].isCompleted == s.objects[i].isCompleted
      && (newDate.None? ==> r.objects[i].creationDate == s.objects[i].creationDate)
      && (newDate.Some? ==> r.objects[i].creationDate == newDate)
    ensures Valid(s) ==> Valid(r)
  {
    var objs := seq(|s.objects|, i requires 0 <= i < |s.objects| =>
      if s.objects[i].objectId == task.objectId then Renamed(s.objects[i], newName, newDate) else s.objects[i]);
    SaveContext(s.(objects := objs), saveFails)
  }

  /** How many objects carry the external id `eid`. */
  function CountWithId(objs: seq<Task>, eid: ExternalId): (n: nat)
    ensures n <= |objs|
    ensures n > 0 <==> exists t :: t in objs && t.id == eid
  {
    if objs == [] then 0
    else
      assert objs == [objs[0]] + objs[1..];
      (if objs[0].id == eid then 1 else 0) + CountWithId(objs[1..], eid)
  }

  /** `isTaskExists`: some object carries `id`; a failing count answers `false`. */
  function IsTaskExists(s: Store, id: int, countFails: bool): (r: bool)
    ensures r <==> !countFails && exists t :: t in s.objects && t.id == Id(id)
  {
    if countFails then false else CountWithId(s.objects, Id(id)) > 0
  }

  /** `addTaskFromAPI`: one new object with the record's id, text and flag; `userId` is dropped. */
  function AddTaskFromAPI(s: Store, model: TaskModel.TaskModel, saveFails: bool): (r: Store)
    ensures |r.objects| == |s.objects| + 1 && r.objects[..|s.objects|] == s.objects
    ensures r.objects[|s.objects|].id == Id(model.id as int)
    ensures r.objects[|s.objects|].taskName == Some(model.todo)
    ensures r.objects[|s.objects|].isCompleted == model.isCompleted
    ensures r.objects[|s.objects|].creationDate == None
    ensures Valid(s) ==> Valid(r)
  {
    var t := Task(s.nextObjectId, Id(model.id as int), Some(model.todo), model.isCompleted, None);
    SaveContext(s.(objects := s.objects + [t], nextObjectId := s.nextObjectId + 1), saveFails)
  }

  /** The owner of a record has no influence on the imported task. */
  lemma ImportIgnoresUserId(s: Store, model: TaskModel.TaskModel, user: TaskModel.SwiftInt, saveFails: bool)
    ensures AddTaskFromAPI(s, model.(userId := user), saveFails) == AddTaskFromAPI(s, model, saveFails)
  {
  }

  /** A task created in the app is never found by an existence query, whatever id is asked for. */
  lemma LocalTaskNeverMatches(s: Store, name: string, done: bool, date: Option<Date>, id: int)
    requires !IsTaskExists(s, id, false)
    ensures !IsTaskExists(AddTask(s, name, done, date, false), id, false)
  {
    var r := AddTask(s, name, done, date, false);
    assert r.objects == s.objects + [r.objects[|s.objects|]];
  }
}

=== FILE: mock_store.dfy ===
/**
 `MockCoreDataManager` of the unit tests: an in-memory list of records keyed
 by an integer id, with flags recording which operations were called. It is
 the tests' reference model of the store; `Abstract` relates it to
 `CoreDataManager`, with the object identity playing the role of the id.
 */
module MockStore {
  import opened Wrappers
  import CoreDataManager

  datatype MockTask = MockTask(id: int, taskName: string, isCompleted: bool)

  datatype Mock = Mock(
    tasks: seq<MockTask>,
    saveContextCalled: bool,
    deleteTaskCalled: bool,
    updateTaskCalled: bool)

  /** A freshly set-up mock. */
  const Fresh: Mock := Mock([], false, false, false)

  /** `addTask`: append one record and note the save. */
  function AddTask(m: Mock, id: int, taskName: string, isCompleted: bool): (r: Mock)
    ensures |r.tasks| == |m.tasks| + 1 && r.tasks[..|m.tasks|] == m.tasks
    ensures r.tasks[|m.tasks|] == MockTask(id, taskName, isCompleted)
    ensures r.saveContextCalled
    ensures r.deleteTaskCalled == m.deleteTaskCalled && r.updateTaskCalled == m.updateTaskCalled
  {
    m.(tasks := m.tasks + [MockTask(id, taskName, isCompleted)], saveContextCalled := true)
  }

  /** `fetchTasks`: the records in insertion order. */
  function FetchTasks(m: Mock): seq<MockTask>
  {
    m.tasks
  }

  /** Adding the records `ts` one by one, in order. */
  function AddAll(m: Mock, ts: seq<MockTask>): Mock
    decreases |ts|
  {
    if ts == [] then m
    else AddAll(AddTask(m, ts[0].id, ts[0].taskName, ts[0].isCompleted), ts[1..])
  }

  /** A fetch returns the records added, in the order they were added, after the ones already held. */
  lemma {:induction false} FetchInInsertionOrder(m: Mock, ts: seq<MockTask>)
    ensures FetchTasks(AddAll(m, ts)) == FetchTasks(m) + ts
    decreases |ts|
  {
    if ts != [] {
      var next := AddTask(m, ts[0].id, ts[0].taskName, ts[0].isCompleted);
      FetchInInsertionOrder(next, ts[1..]);
      assert next.tasks == m.tasks + [ts[0]];
      assert ts == [ts[0]] + ts[1..];
    }
  }

  /** `removeAll { $0.id == id }`. */
  function RemoveAll(tasks: seq<MockTask>, id: int): (r: seq<MockTask>)
    ensures forall t :: t in r <==> t in tasks && t.id != id
    ensures |r| <= |tasks|
  {
    if tasks == [] then []
    else (if tasks[0].id == id then [] else [tasks[0]]) + RemoveAll(tasks[1..], id)
  }

  /** `deleteTask`: note the call, then drop every record with the task's id. */
  function DeleteTask(m: Mock, task: MockTask): (r: Mock)
    ensures r.deleteTaskCalled
    ensures forall t :: t in r.tasks <==> t in m.tasks && t.id != task.id
    ensures r.saveContextCalled == m.saveContextCalled && r.updateTaskCalled == m.updateTaskCalled
  {
    m.(deleteTaskCalled := true, tasks := RemoveAll(m.tasks, task.id))
  }

  /** `firstIndex(where: { $0.id == id })`. */
  function FirstIndex(tasks: seq<MockTask>, id: int): (r: Option<nat>)
    ensures r.Some? ==> r.value < |tasks| && tasks[r.value].id == id
    ensures r.Some? ==> forall j :: 0 <= j < r.value ==> tasks[j].id != id
    ensures r.None? ==> forall t :: t in tasks ==> t.id != id
  {
    if tasks == [] then None
    else if tasks[0].id == id then Some(0)
    else
      match FirstIndex(tasks[1..], id)
      case None => None
      case Some(i) => Some(i + 1)
  }

  /** `updateTask`: note the call, then rename the first record with the task's id, if any. */
  function UpdateTask(m: Mock, task: MockTask, newName: string): (r: Mock)
    ensures r.updateTaskCalled
    ensures |r.tasks| == |m.tasks|
    ensures forall i :: 0 <= i < |m.tasks| ==>
      if Some(i) == FirstIndex(m.tasks, task.id)
      then r.tasks[i] == m.tasks[i].(taskName := newName)
      else r.tasks[i] == m.tasks[i]
    ensures FirstIndex(m.tasks, task.id).None? ==> r.tasks == m.tasks
    ensures r.saveContextCalled == m.saveContextCalled && r.deleteTaskCalled == m.deleteTaskCalled
  {
    match FirstIndex(m.tasks, task.id)
    case None => m.(updateTaskCalled := true)
    case Some(i) => m.(updateTaskCalled := true, tasks := m.tasks[i := m.tasks[i].(taskName := newName)])
  }

  /** No two records share an id. */
  ghost predicate UniqueIds(tasks: seq<MockTask>)
  {
    forall i, j :: 0 <= i < j < |tasks| ==> tasks[i].id != tasks[j].id
  }

  /** With unique ids, deleting one of the records drops the count by exactly one. */
  lemma {:induction false} RemoveAllUnique(tasks: seq<MockTask>, i: nat)
    requires UniqueIds(tasks) && i < |tasks|
    ensures |RemoveAll(tasks, tasks[i].id)| == |tasks| - 1
  {
    var tail := tasks[1..];
    assert UniqueIds(tail);
    if i == 0 {
      RemoveAllAbsent(tail, tasks[0].id);
    } else {
      assert tail[i - 1] == tasks[i];
      RemoveAllUnique(tail, i - 1);
    }
  }

  lemma {:induction false} RemoveAllAbsent(tasks: seq<MockTask>, id: int)
    requires forall j :: 0 <= j < |tasks| ==> tasks[j].id != id
    ensures RemoveAll(tasks, id) == tasks
  {
    if tasks != [] {
      RemoveAllAbsent(tasks[1..], id);
      assert [tasks[0]] + tasks[1..] == tasks;
    }
  }

  // ---------------------------------------------------------------------------
  // The four unit tests
  // ---------------------------------------------------------------------------

  /** `testAddTask`. */
  lemma TestAddTask()
    ensures
      var m := AddTask(Fresh, 1, "Test Task", false);
      |m.tasks| == 1 && m.tasks[0].taskName == "Test Task" && !m.tasks[0].isCompleted && m.saveContextCalled
  {
  }

  /** `testFetchTasks`. */
  lemma TestFetchTasks()
    ensures
      var m := AddTask(AddTask(Fresh, 1, "Task 1", false), 2, "Task 2", true);
      var fetched := FetchTasks(m);
      |fetched| == 2 && fetched[0].taskName == "Task 1" && fetched[1].isCompleted
  {
  }

  /** `testDeleteTask`. */
  lemma TestDeleteTask()
    ensures
      var m := AddTask(AddTask(Fresh, 1, "Task 1", false), 2, "Task 2", true);
      var r := DeleteTask(m, m.tasks[0]);
      && |r.tasks| == |m.tasks| - 1
      && (forall t :: t in r.tasks ==> t.id != m.tasks[0].id)
      && r.deleteTaskCalled
  {
    var m := AddTask(AddTask(Fresh, 1, "Task 1", false), 2, "Task 2", true);
    assert UniqueIds(m.tasks);
    RemoveAllUnique(m.tasks, 0);
  }

  /** `testUpdateTask`. */
  lemma TestUpdateTask()
    ensures
      var m := AddTask(Fresh, 1, "Task 1", false);
      var r := UpdateTask(m, m.tasks[0], "Updated Task");
      r.tasks[0].taskName == "Updated Task" && r.updateTaskCalled
  {
    var m := AddTask(Fresh, 1, "Task 1", false);
    assert FirstIndex(m.tasks, 1) == Some(0);
  }

  // ---------------------------------------------------------------------------
  // The mock as a view of the store model
  // ---------------------------------------------------------------------------

  /** A stored task as the mock sees it: its identity as id, an unnamed task as the empty name. */
  function AbstractTask(t: CoreDataManager.Task): MockTask
  {
    MockTask(t.objectId, match t.taskName case Some(n) => n case None => "", t.isCompleted)
  }

  function Abstract(objs: seq<CoreDataManager.Task>): (r: seq<MockTask>)
    ensures |r| == |objs|
    ensures forall i :: 0 <= i < |objs| ==> r[i] == AbstractTask(objs[i])
  {
    seq(|objs|, i requires 0 <= i < |objs| => AbstractTask(objs[i]))
  }

  /** Adding through the store and adding to the mock under the new identity agree. */
  lemma AddAgrees(s: CoreDataManager.Store, name: string, done: bool, saveFails: bool)
    ensures
      Abstract(CoreDataManager.AddTask(s, name, done, None, saveFails).objects)
      == AddTask(Mock(Abstract(s.objects), false, false, false), s.nextObjectId, name, done).tasks
  {
  }

  /** Deleting through the store and deleting from the mock agree. */
  lemma {:induction false} DeleteAgrees(objs: seq<CoreDataManager.Task>, oid: nat)
    ensures Abstract(CoreDataManager.Without(objs, oid)) == RemoveAll(Abstract(objs), oid)
  {
    if objs != [] {
      DeleteAgrees(objs[1..], oid);
      assert Abstract(objs)[1..] == Abstract(objs[1..]);
      if objs[0].objectId != oid {
        assert Abstract([objs[0]] + CoreDataManager.Without(objs[1..], oid))
          == [AbstractTask(objs[0])] + Abstract(CoreDataManager.Without(objs[1..], oid));
      }
    }
  }

  /** With unique identities, renaming through the store and renaming the first match in the mock agree. */
  lemma UpdateAgrees(s: CoreDataManager.Store, task: CoreDataManager.Task, name: string, saveFails: bool)
    requires CoreDataManager.UniqueObjects(s.objects)
    ensures
      Abstract(CoreDataManager.UpdateTask(s, task, name, None, saveFails).objects)
      == UpdateTask(Mock(Abstract(s.objects), false, false, false), AbstractTask(task), name).tasks
  {
    var lhs := Abstract(CoreDataManager.UpdateTask(s, task, name, None, saveFails).objects);
    var rhs := UpdateTask(Mock(Abstract(s.objects), false, false, false), AbstractTask(task), name).tasks;
    var first := FirstIndex(Abstract(s.objects), task.objectId);
    forall i | 0 <= i < |s.objects| ensures lhs[i] == rhs[i] {
      if first.Some? && s.objects[i].objectId == task.objectId {
        assert s.objects[first.value].objectId == task.objectId;
        assert i == first.value;
      }
    }
  }
}

=== FILE: search_filter.dfy ===
/**
 The search binding of `ToDoViewModel.setupBindings`: an order-preserving,
 case-insensitive substring filter over the loaded tasks, where a task
 without a name never matches a non-empty search.
 */
module SearchFilter {
  import opened Wrappers
  import opened CoreDataManager

  /**
   The lower-case form of one character: ASCII capitals, the Cyrillic capitals
   А..Я and the Cyrillic capitals Ѐ..Џ (which include Ё). Every other character
   is left as it is.
   */
  function LowerChar(c: char): (d: char)
    ensures !IsCapital(d)
    ensures !IsCapital(c) ==> d == c
    ensures IsCapital(c) ==> UpperChar(d) == c
  {
    if 'A' <= c <= 'Z' then (c as int + 32) as char
    else if '\U{0410}' <= c <= '\U{042F}' then (c as int + 32) as char
    else if '\U{0400}' <= c <= '\U{040F}' then (c as int + 80) as char
    else c
  }

  /**
   The capital of a small letter, for the small letters a..z, а..я and ѐ..џ;
   every other character is left as it is.
   */
  function UpperChar(c: char): char
  {
    if 'a' <= c <= 'z' then (c as int - 32) as char
    else if '\U{0430}' <= c <= '\U{044F}' then (c as int - 32) as char
    else if '\U{0450}' <= c <= '\U{045F}' then (c as int - 80) as char
    else c
  }

  /** The capitals `LowerChar` maps to small letters. */
  predicate IsCapital(c: char)
  {
    'A' <= c <= 'Z' || '\U{0400}' <= c <= '\U{042F}'
  }

  /** `lowercased()`, one character at a time. */
  function Lower(s: string): (r: string)
    ensures |r| == |s|
    ensures forall i :: 0 <= i < |s| ==> r[i] == LowerChar(s[i])
  {
    seq(|s|, i requires 0 <= i < |s| => LowerChar(s[i]))
  }

  /** Lower-casing twice is lower-casing once. */
  lemma LowerIdempotent(s: string)
    ensures Lower(Lower(s)) == Lower(s)
  {
  }

  /** `needle` occurs in `hay` starting at position `i`. */
  ghost predicate OccursAt(hay: string, needle: string, i: int)
  {
    0 <= i && i + |needle| <= |hay| && hay[i..i + |needle|] == needle
  }

  /** `String.contains`: `needle` occurs somewhere in `hay`. */
  function Contains(hay: string, needle: string): (r: bool)
    ensures r <==> exists i :: OccursAt(hay, needle, i)
    decreases |hay|
  {
    if |needle| > |hay| then
      assert forall i :: !OccursAt(hay, needle, i);
      false
    else if hay[..|needle|] == needle then
      assert OccursAt(hay, needle, 0);
      true
    else
      OccursShift(hay, needle);
      Contains(hay[1..], needle)
  }

  /** When `needle` is not a prefix of `hay`, it occurs in `hay` iff it occurs in `hay[1..]`. */
  lemma OccursShift(hay: string, needle: string)
    requires |needle| <= |hay| && hay[..|needle|] != needle
    ensures (exists i :: OccursAt(hay, needle, i)) <==> (exists i :: OccursAt(hay[1..], needle, i))
  {
    if exists i :: OccursAt(hay, needle, i) {
      var i :| OccursAt(hay, needle, i);
      assert i != 0;
      assert hay[1..][i - 1..i - 1 + |needle|] == hay[i..i + |needle|];
      assert OccursAt(hay[1..], needle, i - 1);
    }
    if exists i :: OccursAt(hay[1..], needle, i) {
      var i :| OccursAt(hay[1..], needle, i);
      assert hay[1..][i..i + |needle|] == hay[i + 1..i + 1 + |needle|];
      assert OccursAt(hay, needle, i + 1);
    }
  }

  /** The filter's test: the task has a name whose lower-case form contains the lower-case search text. */
  predicate Matches(t: Task, searchText: string)
  {
    match t.taskName
    case None => false
    case Some(name) => Contains(Lower(name), Lower(searchText))
  }

  /** The tasks that match, in their original order. */
  function Select(tasks: seq<Task>, searchText: string): (r: seq<Task>)
    ensures forall t :: t in r <==> t in tasks && Matches(t, searchText)
    ensures |r| <= |tasks|
  {
    if tasks == [] then []
    else
      assert tasks == [tasks[0]] + tasks[1..];
      (if Matches(tasks[0], searchText) then [tasks[0]] else []) + Select(tasks[1..], searchText)
  }

  /** The `filteredTasks` binding: everything for an empty search, the matching tasks otherwise. */
  function Filter(tasks: seq<Task>, searchText: string): (r: seq<Task>)
    ensures searchText == "" ==> r == tasks
    ensures searchText != "" ==> forall t :: t in r <==> t in tasks && Matches(t, searchText)
    ensures searchText != "" ==> forall t :: t in r ==> t.taskName.Some?
    ensures |r| <= |tasks|
  {
    if searchText == "" then tasks else Select(tasks, searchText)
  }

  /** Selection distributes over concatenation: order is kept and no task is duplicated or lost. */
  lemma {:induction false} SelectAppend(a: seq<Task>, b: seq<Task>, searchText: string)
    ensures Select(a + b, searchText) == Select(a, searchText) + Select(b, searchText)
  {
    if a == [] {
      assert a + b == b;
    } else {
      assert (a + b)[0] == a[0];
      assert (a + b)[1..] == a[1..] + b;
      SelectAppend(a[1..], b, searchText);
    }
  }

  /** The filter of any split of the list is the filter of the first part followed by that of the second. */
  lemma FilterSplit(tasks: seq<Task>, searchText: string, n: nat)
    requires n <= |tasks|
    ensures Filter(tasks, searchText) == Filter(tasks[..n], searchText) + Filter(tasks[n..], searchText)
  {
    if searchText != "" {
      assert tasks == tasks[..n] + tasks[n..];
      SelectAppend(tasks[..n], tasks[n..], searchText);
    }
  }

  /** Filtering an already-filtered list with the same search changes nothing. */
  lemma {:induction false} SelectIdempotent(tasks: seq<Task>, searchText: string)
    ensures Select(Select(tasks, searchText), searchText) == Select(tasks, searchText)
  {
    if tasks != [] {
      var head := if Matches(tasks[0], searchText) then [tasks[0]] else [];
      SelectAppend(head, Select(tasks[1..], searchText), searchText);
      SelectIdempotent(tasks[1..], searchText);
      if Matches(tasks[0], searchText) {
        assert [tasks[0]][1..] == [];
      }
    }
  }

  lemma FilterIdempotent(tasks: seq<Task>, searchText: string)
    ensures Filter(Filter(tasks, searchText), searchText) == Filter(tasks, searchText)
  {
    if searchText != "" {
      SelectIdempotent(tasks, searchText);
    }
  }

  /** Two searches with the same lower-case form select the same tasks. */
  lemma {:induction false} SelectCaseInsensitive(tasks: seq<Task>, a: string, b: string)
    requires Lower(a) == Lower(b)
    ensures Select(tasks, a) == Select(tasks, b)
  {
    if tasks != [] {
      SelectCaseInsensitive(tasks[1..], a, b);
    }
  }

  lemma FilterCaseInsensitive(tasks: seq<Task>, a: string, b: string)
    requires Lower(a) == Lower(b)
    ensures Filter(tasks, a) == Filter(tasks, b)
  {
    SelectCaseInsensitive(tasks, a, b);
  }

  /** "buy" finds "Buy milk" but not "Clean"; a task without a name is never found. */
  lemma BuyMilkExample()
    ensures
      var milk := Task(0, NoId, Some("Buy milk"), false, None);
      var clean := Task(1, NoId, Some("Clean"), false, None);
      var unnamed := Task(2, NoId, None, false, None);
      Filter([milk, clean, unnamed], "buy") == [milk]
  {
    var milk := Task(0, NoId, Some("Buy milk"), false, None);
    var clean := Task(1, NoId, Some("Clean"), false, None);
    var unnamed := Task(2, NoId, None, false, None);
    assert Lower("buy") == "buy";
    assert Lower("Buy milk") == "buy milk";
    assert OccursAt("buy milk", "buy", 0);
    assert Matches(milk, "buy");
    assert Lower("Clean") == "clean";
    assert "clean"[1..] == "lean" && "lean"[1..] == "ean" && "ean"[1..] == "an";
    assert !Contains("an", "buy");
    assert "ean"[..3] == "ean" != "buy";
    assert !Contains("ean", "buy");
    assert !Contains("lean", "buy");
    assert !Contains("clean", "buy");
    var r := [milk, clean, unnamed];
    assert r[1..] == [clean, unnamed] && r[1..][1..] == [unnamed] && r[1..][1..][1..] == [];
  }
}

=== FILE: task_model.dfy ===
/**
 The records the remote feed delivers (`TaskModel`, `TaskResponse`) and the
 `Codable` conformance synthesised for them, including the `CodingKeys`
 renaming of `isCompleted` to the external key "completed".
 JSON is modelled as a small value tree; the byte-level syntax is not modelled.
 */
module TaskModel {
  import opened Wrappers

  /** Swift `Int` on the 64-bit platforms the app targets. */
  const INT_MIN: int := -0x8000_0000_0000_0000
  const INT_MAX: int := 0x7FFF_FFFF_FFFF_FFFF
  type SwiftInt = x: int | INT_MIN <= x <= INT_MAX

  datatype TaskModel = TaskModel(id: SwiftInt, todo: string, isCompleted: bool, userId: SwiftInt)

  datatype TaskResponse = TaskResponse(todos: seq<TaskModel>, total: SwiftInt, skip: SwiftInt, limit: SwiftInt)

  /** A decoded JSON document. Object members keep their textual order. */
  datatype Json =
    | JNumber(n: int)
    | JString(s: string)
    | JBool(b: bool)
    | JArray(items: seq<Json>)
    | JObject(members: seq<(string, Json)>)

  /** The `CodingKeys` enumeration of `TaskModel`. */
  datatype CodingKey = Id | Todo | IsCompleted | UserId

  /** The raw value of each coding key: the name used in the external document. */
  function KeyName(k: CodingKey): string
  {
    match k
    case Id => "id"
    case Todo => "todo"
    case IsCompleted => "completed"
    case UserId => "userId"
  }

  /** `CodingKeys(stringValue:)`: the key whose raw value is `name`, if any. */
  function KeyFromName(name: string): (r: Option<CodingKey>)
    ensures forall k :: KeyName(k) == name <==> r == Some(k)
  {
    if name == "id" then Some(Id)
    else if name == "todo" then Some(Todo)
    else if name == "completed" then Some(IsCompleted)
    else if name == "userId" then Some(UserId)
    else None
  }

  /** Why a document does not decode. */
  datatype DecodeError =
    | KeyNotFound(key: string)
    | TypeMismatch(key: string)
    | NumberOutOfRange(key: string)
    | NotAnObject
    | NotAnArray

  /** The value of the first member called `key`, if any. */
  function Member(members: seq<(string, Json)>, key: string): (r: Option<Json>)
    ensures r.Some? ==> (key, r.value) in members
    ensures r.None? ==> forall p :: p in members ==> p.0 != key
  {
    if members == [] then None
    else if members[0].0 == key then Some(members[0].1)
    else Member(members[1..], key)
  }

  /** Decodes the `Int` stored under `key`; a number that does not fit in `Int` is an error. */
  function DecodeInt(members: seq<(string, Json)>, key: string): (r: Result<SwiftInt, DecodeError>)
    ensures r.Success? ==> Member(members, key) == Some(JNumber(r.value as int))
    ensures forall n: int {:trigger JNumber(n)} ::
      INT_MIN <= n <= INT_MAX && Member(members, key) == Some(JNumber(n)) ==> r == Success(n)
    ensures Member(members, key).None? ==> r == Failure(KeyNotFound(key))
  {
    match Member(members, key)
    case None => Failure(KeyNotFound(key))
    case Some(JNumber(n)) =>
      if INT_MIN <= n <= INT_MAX then Success(n) else Failure(NumberOutOfRange(key))
    case Some(_) => Failure(TypeMismatch(key))
  }

  function DecodeString(members: seq<(string, Json)>, key: string): (r: Result<string, DecodeError>)
    ensures r.Success? ==> Member(members, key) == Some(JString(r.value))
    ensures forall s {:trigger JString(s)} :: Member(members, key) == Some(JString(s)) ==> r == Success(s)
    ensures Member(members, key).None? ==> r == Failure(KeyNotFound(key))
  {
    match Member(members, key)
    case None => Failure(KeyNotFound(key))
    case Some(JString(s)) => Success(s)
    case Some(_) => Failure(TypeMismatch(key))
  }

  function DecodeBool(members: seq<(string, Json)>, key: string): (r: Result<bool, DecodeError>)
    ensures r.Success? ==> Member(members, key) == Some(JBool(r.value))
    ensures forall b {:trigger JBool(b)} :: Member(members, key) == Some(JBool(b)) ==> r == Success(b)
    ensures Member(members, key).None? ==> r == Failure(KeyNotFound(key))
  {
    match Member(members, key)
    case None => Failure(KeyNotFound(key))
    case Some(JBool(b)) => Success(b)
    case Some(_) => Failure(TypeMismatch(key))
  }

  /**
   The synthesised `init(from:)`: the four keys are read in declaration order
   and the first failure is reported. Members with other names are ignored.
   */
  function DecodeTaskModel(j: Json): (r: Result<TaskModel, DecodeError>)
    ensures r.Success? ==>
      && j.JObject?
      && Member(j.members, KeyName(Id)) == Some(JNumber(r.value.id as int))
      && Member(j.members, KeyName(Todo)) == Some(JString(r.value.todo))
      && Member(j.members, KeyName(IsCompleted)) == Some(JBool(r.value.isCompleted))
      && Member(j.members, KeyName(UserId)) == Some(JNumber(r.value.userId as int))
    ensures j.JObject? && Member(j.members, "id").None? ==> r == Failure(KeyNotFound("id"))
    ensures !j.JObject? ==> r == Failure(NotAnObject)
  {
    match j
    case JObject(ms) =>
      var id :- DecodeInt(ms, "id");
      var todo :- DecodeString(ms, "todo");
      var done :- DecodeBool(ms, "completed");
      var user :- DecodeInt(ms, "userId");
      Success(TaskModel(id, todo, done, user))
    case _ => Failure(NotAnObject)
  }

  /** The synthesised `encode(to:)`: one member per coding key, in declaration order. */
  function EncodeTaskModel(m: TaskModel): (j: Json)
    ensures j.JObject? && |j.members| == 4
    ensures (KeyName(IsCompleted), JBool(m.isCompleted)) in j.members
    ensures DecodeTaskModel(j) == Success(m)
  {
    var tail3 := [(KeyName(UserId), JNumber(m.userId as int))];
    var tail2 := [(KeyName(IsCompleted), JBool(m.isCompleted))] + tail3;
    var tail1 := [(KeyName(Todo), JString(m.todo))] + tail2;
    var members := [(KeyName(Id), JNumber(m.id as int))] + tail1;
    assert members[1..] == tail1 && tail1[1..] == tail2 && tail2[1..] == tail3;
    assert Member(members, "todo") == Some(JString(m.todo));
    assert Member(tail3, "userId") == Some(JNumber(m.userId as int));
    assert Member(tail2, "userId") == Some(JNumber(m.userId as int));
    assert Member(tail1, "userId") == Some(JNumber(m.userId as int));
    assert Member(tail2, "completed") == Some(JBool(m.isCompleted));
    assert Member(tail1, "completed") == Some(JBool(m.isCompleted));
    DecodeFromMembers(members, m);
    JObject(members)
  }

  /** Any object whose four keys hold the fields of `m` decodes to `m`, whatever else it holds. */
  lemma DecodeFromMembers(ms: seq<(string, Json)>, m: TaskModel)
    requires Member(ms, "id") == Some(JNumber(m.id as int))
    requires Member(ms, "todo") == Some(JString(m.todo))
    requires Member(ms, "completed") == Some(JBool(m.isCompleted))
    requires Member(ms, "userId") == Some(JNumber(m.userId as int))
    ensures DecodeTaskModel(JObject(ms)) == Success(m)
  {
    assert DecodeInt(ms, "id") == Success(m.id);
    assert DecodeString(ms, "todo") == Success(m.todo);
    assert DecodeBool(ms, "completed") == Success(m.isCompleted);
    assert DecodeInt(ms, "userId") == Success(m.userId);
  }

  /** Decodes a JSON array of task records; the first bad element fails the whole array. */
  function DecodeTaskModels(items: seq<Json>): (r: Result<seq<TaskModel>, DecodeError>)
    ensures r.Success? ==> |r.value| == |items|
    ensures r.Success? ==> forall i :: 0 <= i < |items| ==> DecodeTaskModel(items[i]) == Success(r.value[i])
  {
    if items == [] then Success([])
    else
      var m :- DecodeTaskModel(items[0]);
      var ms :- DecodeTaskModels(items[1..]);
      Success([m] + ms)
  }

  function EncodeTaskModels(ms: seq<TaskModel>): (items: seq<Json>)
    ensures |items| == |ms|
    ensures forall i :: 0 <= i < |ms| ==> items[i] == EncodeTaskModel(ms[i])
  {
    if ms == [] then [] else [EncodeTaskModel(ms[0])] + EncodeTaskModels(ms[1..])
  }

  /** An array decodes element by element. */
  lemma DecodeTaskModelsStep(items: seq<Json>, m: TaskModel, ms: seq<TaskModel>)
    requires items != [] && DecodeTaskModel(items[0]) == Success(m)
    requires DecodeTaskModels(items[1..]) == Success(ms)
    ensures DecodeTaskModels(items) == Success([m] + ms)
  {
  }

  /** Decoding a list of encoded records gives the records back, in order. */
  lemma {:induction false} TaskModelsRoundTrip(ms: seq<TaskModel>)
    ensures DecodeTaskModels(EncodeTaskModels(ms)) == Success(ms)
  {
    if ms != [] {
      var items := EncodeTaskModels(ms);
      assert items[0] == EncodeTaskModel(ms[0]) && items[1..] == EncodeTaskModels(ms[1..]);
      TaskModelsRoundTrip(ms[1..]);
      DecodeTaskModelsStep(items, ms[0], ms[1..]);
      assert [ms[0]] + ms[1..] == ms;
    }
  }

  /** The array stored under "todos", if there is one. */
  function TodosOf(ms: seq<(string, Json)>): Option<seq<Json>>
  {
    match Member(ms, "todos")
    case Some(JArray(items)) => Some(items)
    case _ => None
  }

  /** The synthesised `init(from:)` of `TaskResponse`: `todos`, `total`, `skip`, `limit`. */
  function DecodeTaskResponse(j: Json): (r: Result<TaskResponse, DecodeError>)
    ensures r.Success? ==> j.JObject? && TodosOf(j.members).Some?
    ensures r.Success? ==> DecodeTaskModels(TodosOf(j.members).value) == Success(r.value.todos)
    ensures r.Success? ==> Member(j.members, "total") == Some(JNumber(r.value.total as int))
    ensures r.Success? ==> Member(j.members, "skip") == Some(JNumber(r.value.skip as int))
    ensures r.Success? ==> Member(j.members, "limit") == Some(JNumber(r.value.limit as int))
    ensures !j.JObject? ==> r == Failure(NotAnObject)
  {
    match j
    case JObject(ms) =>
      (match Member(ms, "todos")
       case None => Failure(KeyNotFound("todos"))
       case Some(JArray(items)) =>
         var todos :- DecodeTaskModels(items);
         var total :- DecodeInt(ms, "total");
         var skip :- DecodeInt(ms, "skip");
         var limit :- DecodeInt(ms, "limit");
         Success(TaskResponse(todos, total, skip, limit))
       case Some(_) => Failure(TypeMismatch("todos")))
    case _ => Failure(NotAnObject)
  }

  /** Any object whose four keys hold the parts of `r` decodes to `r`. */
  lemma DecodeResponseFromMembers(ms: seq<(string, Json)>, items: seq<Json>, r: TaskResponse)
    requires Member(ms, "todos") == Some(JArray(items))
    requires DecodeTaskModels(items) == Success(r.todos)
    requires Member(ms, "total") == Some(JNumber(r.total as int))
    requires Member(ms, "skip") == Some(JNumber(r.skip as int))
    requires Member(ms, "limit") == Some(JNumber(r.limit as int))
    ensures DecodeTaskResponse(JObject(ms)) == Success(r)
  {
    assert DecodeInt(ms, "total") == Success(r.total);
    assert DecodeInt(ms, "skip") == Success(r.skip);
    assert DecodeInt(ms, "limit") == Success(r.limit);
  }

  function EncodeTaskResponse(r: TaskResponse): (j: Json)
    ensures DecodeTaskResponse(j) == Success(r)
  {
    var tail3 := [("limit", JNumber(r.limit as int))];
    var tail2 := [("skip", JNumber(r.skip as int))] + tail3;
    var tail1 := [("total", JNumber(r.total as int))] + tail2;
    var members := [("todos", JArray(EncodeTaskModels(r.todos)))] + tail1;
    assert members[1..] == tail1 && tail1[1..] == tail2 && tail2[1..] == tail3;
    assert Member(members, "total") == Some(JNumber(r.total as int));
    assert Member(tail3, "limit") == Some(JNumber(r.limit as int));
    assert Member(tail2, "limit") == Some(JNumber(r.limit as int));
    assert Member(tail1, "limit") == Some(JNumber(r.limit as int));
    assert Member(tail2, "skip") == Some(JNumber(r.skip as int));
    assert Member(tail1, "skip") == Some(JNumber(r.skip as int));
    TaskModelsRoundTrip(r.todos);
    DecodeResponseFromMembers(members, EncodeTaskModels(r.todos), r);
    JObject(members)
  }

  /** Only "completed" names the completion flag; the property name itself is not a key. */
  lemma CompletedKeyMapping()
    ensures KeyFromName("completed") == Some(IsCompleted)
    ensures KeyFromName("isCompleted") == None
    ensures forall k1, k2 :: KeyName(k1) == KeyName(k2) ==> k1 == k2
  {
  }
}

=== FILE: task_view_controller.dfy ===
/**
 `TaskViewController`: the editor screen. Leaving it trims the text and hands
 it to the delegate as a new or an updated task; while the user types, the
 first line is shown as a bold title and the rest is re-joined word by word
 with dates greyed.
 */
module TaskViewController {
  import opened Wrappers
  import opened Attributed
  import TextFormatterService

  // ---------------------------------------------------------------------------
  // Trimming (`trimmingCharacters(in: .whitespacesAndNewlines)`)
  // ---------------------------------------------------------------------------

  /**
   `CharacterSet.whitespacesAndNewlines`: tab, the line breaks U+000A–U+000D,
   U+0085, U+2028 and U+2029, and the space separators (category Zs).
   */
  predicate IsWhitespaceOrNewline(c: char)
  {
    || c == ' ' || '\t' <= c <= '\r' || c == '\U{0085}' || c == '\U{00A0}' || c == '\U{1680}'
    || '\U{2000}' <= c <= '\U{200A}' || c == '\U{2028}' || c == '\U{2029}'
    || c == '\U{202F}' || c == '\U{205F}' || c == '\U{3000}'
  }

  ghost predicate AllSpace(s: string)
  {
    forall j :: 0 <= j < |s| ==> IsWhitespaceOrNewline(s[j])
  }

  /** Neither end is whitespace. */
  predicate Trimmed(s: string)
  {
    s == [] || (!IsWhitespaceOrNewline(s[0]) && !IsWhitespaceOrNewline(s[|s| - 1]))
  }

  /** The first position at or after `i` that is not whitespace, or the end. */
  function FirstNonSpace(s: string, i: nat): (n: nat)
    requires i <= |s|
    ensures i <= n <= |s|
    ensures forall j :: i <= j < n ==> IsWhitespaceOrNewline(s[j])
    ensures n < |s| ==> !IsWhitespaceOrNewline(s[n])
    decreases |s| - i
  {
    if i == |s| || !IsWhitespaceOrNewline(s[i]) then i else FirstNonSpace(s, i + 1)
  }

  /** The end of `s[lo..hi]` once its trailing whitespace is dropped. */
  function TrailEnd(s: string, lo: nat, hi: nat): (n: nat)
    requires lo <= hi <= |s|
    ensures lo <= n <= hi
    ensures forall j :: n <= j < hi ==> IsWhitespaceOrNewline(s[j])
    ensures lo < n ==> !IsWhitespaceOrNewline(s[n - 1])
    decreases hi
  {
    if hi == lo || !IsWhitespaceOrNewline(s[hi - 1]) then hi else TrailEnd(s, lo, hi - 1)
  }

  /** The bounds of the text that survives trimming. */
  function TrimBounds(s: string): (b: (nat, nat))
    ensures b.0 <= b.1 <= |s|
    ensures forall j :: 0 <= j < b.0 || b.1 <= j < |s| ==> IsWhitespaceOrNewline(s[j])
    ensures b.0 < b.1 ==> !IsWhitespaceOrNewline(s[b.0]) && !IsWhitespaceOrNewline(s[b.1 - 1])
  {
    var lo := FirstNonSpace(s, 0);
    (lo, TrailEnd(s, lo, |s|))
  }

  /** `trimmingCharacters(in: .whitespacesAndNewlines)`. */
  function Trim(s: string): (r: string)
    ensures Trimmed(r)
    ensures r == [] <==> AllSpace(s)
  {
    var b := TrimBounds(s);
    s[b.0..b.1]
  }

  /** Whitespace followed by whitespace is whitespace. */
  lemma AllSpaceAppend(a: string, b: string)
    requires AllSpace(a) && AllSpace(b)
    ensures AllSpace(a + b)
  {
    forall j | 0 <= j < |a + b|
      ensures IsWhitespaceOrNewline((a + b)[j])
    {
      if j < |a| {
        assert (a + b)[j] == a[j];
      } else {
        assert (a + b)[j] == b[j - |a|];
      }
    }
  }

  /** A sequence is its three slices around `i` and `j`. */
  lemma SplitThree<T>(s: seq<T>, i: nat, j: nat)
    requires i <= j <= |s|
    ensures s == s[..i] + s[i..j] + s[j..]
  {
    assert s[..i] + s[i..j] == s[..j];
  }

  /** Slicing `p + m + q` at the borders gives the parts back. */
  lemma SliceParts<T>(p: seq<T>, m: seq<T>, q: seq<T>)
    ensures var s := p + m + q;
      && s[..|p|] == p && s[|p|..|p| + |m|] == m && s[|p| + |m|..] == q
  {
    var s := p + m + q;
    assert s[..|p| + |m|] == p + m;
  }

  /** What trimming drops in front is whitespace. */
  lemma TrimmedPrefix(s: string)
    ensures AllSpace(s[..TrimBounds(s).0])
  {
    var b := TrimBounds(s);
    forall j | 0 <= j < b.0
      ensures IsWhitespaceOrNewline(s[..b.0][j])
    {
      assert s[..b.0][j] == s[j];
    }
  }

  /** What trimming drops at the end is whitespace. */
  lemma TrimmedSuffix(s: string)
    ensures AllSpace(s[TrimBounds(s).1..])
  {
    var b := TrimBounds(s);
    forall j | 0 <= j < |s| - b.1
      ensures IsWhitespaceOrNewline(s[b.1..][j])
    {
      assert s[b.1..][j] == s[b.1 + j];
    }
  }

  /** `s` is its trimmed text with whitespace on either side. */
  lemma TrimSplits(s: string)
    ensures var b := TrimBounds(s);
      && s == s[..b.0] + Trim(s) + s[b.1..]
      && AllSpace(s[..b.0]) && AllSpace(s[b.1..])
  {
    var b := TrimBounds(s);
    SplitThree(s, b.0, b.1);
    TrimmedPrefix(s);
    TrimmedSuffix(s);
  }

  /** Where the trimmed core of `p + m + q` starts and ends, given only the whitespace facts. */
  lemma CoreBounds(s: string, lo: nat, hi: nat)
    requires lo < hi <= |s|
    requires forall j :: 0 <= j < lo || hi <= j < |s| ==> IsWhitespaceOrNewline(s[j])
    requires !IsWhitespaceOrNewline(s[lo]) && !IsWhitespaceOrNewline(s[hi - 1])
    ensures TrimBounds(s) == (lo, hi)
  {
  }

  /** Trimming removes exactly the surrounding whitespace: it is the unique trimmed core. */
  lemma TrimUnique(p: string, m: string, q: string)
    requires AllSpace(p) && AllSpace(q) && Trimmed(m)
    ensures Trim(p + m + q) == m
  {
    var s := p + m + q;
    SliceParts(p, m, q);
    if m == [] {
      assert s == p + q;
      AllSpaceAppend(p, q);
    } else {
      var lo, hi := |p|, |p| + |m|;
      forall j | 0 <= j < lo || hi <= j < |s|
        ensures IsWhitespaceOrNewline(s[j])
      {
        if j < lo {
          assert s[j] == p[j];
        } else {
          assert s[j] == q[j - hi];
        }
      }
      assert s[lo] == m[0] && s[hi - 1] == m[|m| - 1];
      CoreBounds(s, lo, hi);
    }
  }

  lemma TrimIdempotent(s: string)
    ensures Trim(Trim(s)) == Trim(s)
  {
    TrimUnique([], Trim(s), []);
    assert [] + Trim(s) + [] == Trim(s);
  }

  /** Regrouping a five-part concatenation. */
  lemma Regroup<T>(p: seq<T>, a: seq<T>, m: seq<T>, c: seq<T>, q: seq<T>)
    ensures p + (a + m + c) + q == (p + a) + m + (c + q)
  {
  }

  /** Whitespace added around a text does not change what trimming keeps. */
  lemma TrimIgnoresPadding(p: string, x: string, q: string)
    requires AllSpace(p) && AllSpace(q)
    ensures Trim(p + x + q) == Trim(x)
  {
    var b := TrimBounds(x);
    TrimSplits(x);
    var a, m, c := x[..b.0], Trim(x), x[b.1..];
    Regroup(p, a, m, c, q);
    AllSpaceAppend(p, a);
    AllSpaceAppend(c, q);
    TrimUnique(p + a, m, c + q);
  }

  // ---------------------------------------------------------------------------
  // The back button
  // ---------------------------------------------------------------------------

  /** The two `TaskCreationDelegate` callbacks. */
  datatype DelegateCall = DidCreateTask(task: string) | DidUpdateTask(index: int, newName: string)

  /** The text a delegate call hands over. */
  function Payload(c: DelegateCall): string
  {
    match c
    case DidCreateTask(task) => task
    case DidUpdateTask(_, newName) => newName
  }

  /** What tapping back does: the delegate calls made, and whether the screen is popped. */
  datatype BackOutcome = BackOutcome(calls: seq<DelegateCall>, popped: bool)

  /** `taskView.text ?? ""`. */
  function EditorText(text: Option<string>): string
  {
    if text.Some? then text.value else ""
  }

  /**
   `backButtonTapped`: an all-whitespace text is discarded; otherwise the
   trimmed text updates the task being edited (`index` set) or creates a new
   one (`index` nil). The (weak) delegate may be gone, and the screen is
   popped in every case.
   */
  function BackButtonTapped(text: Option<string>, index: Option<int>, hasDelegate: bool): (r: BackOutcome)
    ensures r.popped
    ensures |r.calls| <= 1
    ensures r.calls == [] <==> !hasDelegate || AllSpace(EditorText(text))
    ensures |r.calls| == 1 ==> (r.calls[0].DidUpdateTask? <==> index.Some?)
    ensures |r.calls| == 1 && index.Some? ==> r.calls[0].index == index.value
    ensures |r.calls| == 1 ==> Payload(r.calls[0]) != [] && Trimmed(Payload(r.calls[0]))
  {
    var trimmed := Trim(EditorText(text));
    if trimmed == [] || !hasDelegate then BackOutcome([], true)
    else if index.Some? then BackOutcome([DidUpdateTask(index.value, trimmed)], true)
    else BackOutcome([DidCreateTask(trimmed)], true)
  }

  /** Leading and trailing whitespace in the editor never reaches the delegate. */
  lemma BackButtonIgnoresPadding(p: string, x: string, q: string, index: Option<int>, hasDelegate: bool)
    requires AllSpace(p) && AllSpace(q)
    ensures BackButtonTapped(Some(p + x + q), index, hasDelegate) == BackButtonTapped(Some(x), index, hasDelegate)
  {
    TrimIgnoresPadding(p, x, q);
  }

  /** Reopening a task and leaving at once hands back the text unchanged once it is trimmed. */
  lemma BackButtonStable(x: string, index: Option<int>)
    requires x != [] && Trimmed(x)
    ensures BackButtonTapped(Some(x), index, true).calls
      == if index.Some? then [DidUpdateTask(index.value, x)] else [DidCreateTask(x)]
  {
    TrimUnique([], x, []);
    assert [] + x + [] == x;
  }

  // ---------------------------------------------------------------------------
  // Words (`split(separator: " ")`)
  // ---------------------------------------------------------------------------

  /** The first space at or after `i`, or the end. */
  function WordEnd(s: string, i: nat): (n: nat)
    requires i <= |s|
    ensures i <= n <= |s|
    ensures forall j :: i <= j < n ==> s[j] != ' '
    ensures n < |s| ==> s[n] == ' '
    decreases |s| - i
  {
    if i == |s| || s[i] == ' ' then i else WordEnd(s, i + 1)
  }

  /** No character is a space. */
  predicate NoSpace(s: string)
  {
    forall j :: 0 <= j < |s| ==> s[j] != ' '
  }

  /** A word as `split` returns it: not empty, no space. */
  predicate IsWord(w: string)
  {
    w != [] && NoSpace(w)
  }

  /** `split(separator: " ")`: the maximal runs of non-space characters, in order. */
  function SplitWords(s: string): (ws: seq<string>)
    ensures forall i :: 0 <= i < |ws| ==> IsWord(ws[i])
    ensures IsWord(s) ==> ws == [s]
    decreases |s|
  {
    if s == [] then []
    else if s[0] == ' ' then SplitWords(s[1..])
    else
      var n := WordEnd(s, 0);
      assert forall j :: 0 <= j < n ==> s[..n][j] == s[j];
      assert NoSpace(s) ==> n == |s| && s[..n] == s && s[n..] == [];
      [s[..n]] + SplitWords(s[n..])
  }

  /**
   A space ends a word: the words of `a + " " + b` are those of `a` followed
   by those of `b` whenever `a` has no space. With `a` a word this says each
   word runs up to the next space, so words are maximal runs.
   */
  lemma SplitAtSpace(a: string, b: string)
    requires NoSpace(a)
    ensures SplitWords(a + " " + b) == SplitWords(a) + SplitWords(b)
  {
    var s := a + " " + b;
    if a == [] {
      assert s == " " + b && s[1..] == b;
    } else {
      FirstWord(a, b);
      assert s[0] == a[0];
      assert (" " + b)[1..] == b;
    }
  }

  /** The text with every space deleted. */
  function RemoveSpaces(s: string): (r: string)
    ensures NoSpace(r)
    ensures |r| <= |s|
  {
    if s == [] then [] else (if s[0] == ' ' then [] else [s[0]]) + RemoveSpaces(s[1..])
  }

  /** The words glued together without separators. */
  function Concat(ws: seq<string>): string
  {
    if ws == [] then [] else ws[0] + Concat(ws[1..])
  }

  /** Every word followed by one space: the text `formatDatesInText` produces. */
  function JoinWords(ws: seq<string>): string
  {
    if ws == [] then [] else ws[0] + " " + JoinWords(ws[1..])
  }

  lemma {:induction false} RemoveSpacesAppend(a: string, b: string)
    ensures RemoveSpaces(a + b) == RemoveSpaces(a) + RemoveSpaces(b)
  {
    if a == [] {
      assert a + b == b;
    } else {
      assert (a + b)[1..] == a[1..] + b;
      RemoveSpacesAppend(a[1..], b);
    }
  }

  lemma {:induction false} RemoveSpacesOfSpaceless(s: string)
    requires NoSpace(s)
    ensures RemoveSpaces(s) == s
  {
    if s != [] {
      assert forall j :: 0 <= j < |s[1..]| ==> s[1..][j] == s[j + 1];
      RemoveSpacesOfSpaceless(s[1..]);
    }
  }

  /** Splitting into words loses the spaces and nothing else. */
  lemma {:induction false} SplitWordsKeepsCharacters(s: string)
    ensures Concat(SplitWords(s)) == RemoveSpaces(s)
    decreases |s|
  {
    if s == [] {
    } else if s[0] == ' ' {
      SplitWordsKeepsCharacters(s[1..]);
    } else {
      var n := WordEnd(s, 0);
      var ws := SplitWords(s);
      assert ws[0] == s[..n] && ws[1..] == SplitWords(s[n..]);
      SplitWordsKeepsCharacters(s[n..]);
      assert s == s[..n] + s[n..];
      RemoveSpacesAppend(s[..n], s[n..]);
      assert forall j :: 0 <= j < n ==> s[..n][j] == s[j];
      RemoveSpacesOfSpaceless(s[..n]);
    }
  }

  /** One word and its space lose only the space. */
  lemma JoinStep(w: string, tail: string)
    requires NoSpace(w)
    ensures RemoveSpaces(w + " " + tail) == w + RemoveSpaces(tail)
  {
    var sp := " ";
    assert RemoveSpaces(sp) == [] by {
      assert sp[1..] == [];
    }
    RemoveSpacesAppend(w, sp);
    RemoveSpacesOfSpaceless(w);
    var head := w + sp;
    assert RemoveSpaces(head) == w;
    RemoveSpacesAppend(head, tail);
  }

  /** Joining words with single spaces loses only those spaces. */
  lemma {:induction false} JoinWordsKeepsCharacters(ws: seq<string>)
    requires forall i :: 0 <= i < |ws| ==> IsWord(ws[i])
    ensures RemoveSpaces(JoinWords(ws)) == Concat(ws)
  {
    if ws != [] {
      var tail := ws[1..];
      forall i | 0 <= i < |tail| ensures IsWord(tail[i]) {
        assert tail[i] == ws[i + 1];
      }
      JoinWordsKeepsCharacters(tail);
      JoinStep(ws[0], JoinWords(tail));
    }
  }

  /** The word a text starts with ends at the first space. */
  lemma FirstWord(w: string, rest: string)
    requires IsWord(w)
    ensures WordEnd(w + " " + rest, 0) == |w|
    ensures (w + " " + rest)[..|w|] == w && (w + " " + rest)[|w|..] == " " + rest
  {
    var s := w + " " + rest;
    var n := WordEnd(s, 0);
    assert s[|w|] == ' ';
    assert forall j :: 0 <= j < |w| ==> s[j] == w[j];
  }

  /** Splitting the re-joined text gives back the same words. */
  lemma {:induction false} SplitJoinRoundTrip(ws: seq<string>)
    requires forall i :: 0 <= i < |ws| ==> IsWord(ws[i])
    ensures SplitWords(JoinWords(ws)) == ws
  {
    if ws != [] {
      var rest := JoinWords(ws[1..]);
      var s := ws[0] + " " + rest;
      assert JoinWords(ws) == s;
      FirstWord(ws[0], rest);
      assert s[0] == ws[0][0];
      assert (" " + rest)[1..] == rest;
      SplitJoinRoundTrip(ws[1..]);
      assert ws == [ws[0]] + ws[1..];
    }
  }

  // ---------------------------------------------------------------------------
  // `formatDatesInText`
  // ---------------------------------------------------------------------------

  /** System font 16, greyed for a valid date and white otherwise. */
  function WordStyle(isDate: bool): Style
  {
    Style(Some(System16), Some(if isDate then Stroke else CustomWhite), false)
  }

  /** One segment per word: the word and a space, styled by `isValidDate`. */
  function StyleWords(ws: seq<string>, isValidDate: string -> bool): (r: seq<Segment>)
    ensures |r| == |ws|
    ensures forall i :: 0 <= i < |r| ==> r[i] == Segment(ws[i] + " ", WordStyle(isValidDate(ws[i])))
    ensures Text(r) == JoinWords(ws)
  {
    if ws == [] then []
    else
      var r := [Segment(ws[0] + " ", WordStyle(isValidDate(ws[0])))] + StyleWords(ws[1..], isValidDate);
      assert r[1..] == StyleWords(ws[1..], isValidDate);
      r
  }

  /**
   `formatDatesInText`: every space-separated word followed by one space, in
   order, greyed exactly when `isValidDate` accepts it. Runs of spaces
   collapse to one and a trailing space is added; a newline stays inside its
   word.
   */
  function FormatDatesInText(text: string, isValidDate: string -> bool): (r: seq<Segment>)
    ensures |r| == |SplitWords(text)|
    ensures forall i :: 0 <= i < |r| ==>
      && r[i].text == SplitWords(text)[i] + " "
      && r[i].style.font == Some(System16)
      && (r[i].style.color == Some(Stroke) <==> isValidDate(SplitWords(text)[i]))
      && r[i].style.color == Some(if isValidDate(SplitWords(text)[i]) then Stroke else CustomWhite)
      && !r[i].style.strikethrough
    ensures SplitWords(Text(r)) == SplitWords(text)
    ensures RemoveSpaces(Text(r)) == RemoveSpaces(text)
    ensures JoinWords(SplitWords(Text(r))) == Text(r)
  {
    var ws := SplitWords(text);
    SplitJoinRoundTrip(ws);
    JoinWordsKeepsCharacters(ws);
    SplitWordsKeepsCharacters(text);
    StyleWords(ws, isValidDate)
  }

  /** Formatting the formatted text again changes nothing. */
  lemma FormatDatesIdempotent(text: string, isValidDate: string -> bool)
    ensures FormatDatesInText(Text(FormatDatesInText(text, isValidDate)), isValidDate)
      == FormatDatesInText(text, isValidDate)
  {
  }

  // ---------------------------------------------------------------------------
  // `formatTextView`
  // ---------------------------------------------------------------------------

  /** The editor title: SF Pro Text bold 34, white. */
  const EditorTitle: Style := Style(Some(SfProTextBold34), Some(CustomWhite), false)

  /** Putting a text back together from the part before its newline, the newline, and a new rest. */
  lemma ReplaceRest(text: string, i: nat, t: string)
    requires i < |text| && text[i] == '\n'
    ensures var s := text[..i] + "\n" + t;
      && |s| > i && s[..i + 1] == text[..i + 1] && s[..i] == text[..i] && s[i + 1..] == t
  {
    var s := text[..i] + "\n" + t;
    SliceParts(text[..i], "\n", t);
    assert text[..i + 1] == text[..i] + "\n";
    assert s[..i + 1] == text[..i] + "\n";
  }

  /**
   `formatTextView`: the text up to the first newline is the title; if there
   is a newline, it follows unstyled and the rest goes through
   `formatDatesInText`. The title and the newline are kept verbatim; of the
   rest, only spaces may change.
   */
  function FormatTextView(text: string, isValidDate: string -> bool): (r: seq<Segment>)
    ensures |r| >= 1 && r[0].style == EditorTitle && TextFormatterService.NoNewline(r[0].text)
    ensures TextFormatterService.NewlineIndex(text).None? ==> Text(r) == text && |r| == 1
    ensures TextFormatterService.NewlineIndex(text).Some? ==>
      var i := TextFormatterService.NewlineIndex(text).value;
      && |r| >= 2 && r[1] == Segment("\n", Plain)
      && |Text(r)| > i && Text(r)[..i + 1] == text[..i + 1]
      && RemoveSpaces(Text(r)[i + 1..]) == RemoveSpaces(text[i + 1..])
      && r[2..] == FormatDatesInText(text[i + 1..], isValidDate)
  {
    match TextFormatterService.NewlineIndex(text)
    case None =>
      [Segment(text, EditorTitle)]
    case Some(i) =>
      var rest := FormatDatesInText(text[i + 1..], isValidDate);
      var r := Titled(Segment(text[..i], EditorTitle), rest);
      assert Text(r) == text[..i] + "\n" + Text(rest);
      ReplaceRest(text, i, Text(rest));
      r
  }

  /** In a title without newlines followed by one, the first newline is that one. */
  lemma NewlineAfterTitle(title: string, rest: string)
    requires TextFormatterService.NoNewline(title)
    ensures TextFormatterService.NewlineIndex(title + "\n" + rest) == Some(|title|)
  {
    var s := title + "\n" + rest;
    assert s[|title|] == '\n';
    assert forall j :: 0 <= j < |title| ==> s[j] == title[j];
  }

  /** Formatting runs on every edit; formatting the formatted text again changes nothing. */
  lemma FormatTextViewIdempotent(text: string, isValidDate: string -> bool)
    ensures FormatTextView(Text(FormatTextView(text, isValidDate)), isValidDate)
      == FormatTextView(text, isValidDate)
  {
    match TextFormatterService.NewlineIndex(text)
    case None =>
    case Some(i) =>
      var title := text[..i];
      var rest := FormatDatesInText(text[i + 1..], isValidDate);
      var shown := title + "\n" + Text(rest);
      assert Text(FormatTextView(text, isValidDate)) == shown;
      NewlineAfterTitle(title, Text(rest));
      ReplaceRest(text, i, Text(rest));
      FormatDatesIdempotent(text[i + 1..], isValidDate);
  }
}

=== FILE: task_view_model.dfy ===
/**
 `TaskViewModel`: the older list view model. Adding and renaming reload the
 array from the store; removing patches the array in place instead.
 */
module TaskViewModel {
  import opened Wrappers
  import opened CoreDataManager

  datatype TaskViewModel = TaskViewModel(store: Store, task: seq<Task>)

  /** The property initialiser: the array starts as a fetch from the store. */
  function Init(store: Store, fetchFails: bool): (r: TaskViewModel)
    ensures r.store == store
    ensures !fetchFails ==> r.task == store.objects
    ensures fetchFails ==> r.task == []
  {
    TaskViewModel(store, FetchTasks(store, fetchFails))
  }

  /** `addTask`: insert through the store (no date), then refetch the whole array. */
  function AddTask(vm: TaskViewModel, taskName: string, isCompleted: bool, faults: Faults): (r: TaskViewModel)
    ensures r.task == FetchTasks(r.store, faults.fetchFails)
    ensures |r.store.objects| == |vm.store.objects| + 1
    ensures r.store.objects[..|vm.store.objects|] == vm.store.objects
    ensures r.store.objects[|vm.store.objects|].taskName == Some(taskName)
    ensures r.store.objects[|vm.store.objects|].isCompleted == isCompleted
    ensures r.store.objects[|vm.store.objects|].id == NoId
    ensures r.store.objects[|vm.store.objects|].creationDate == None
    ensures Valid(vm.store) ==> Valid(r.store)
  {
    var store := CoreDataManager.AddTask(vm.store, taskName, isCompleted, None, faults.saveFails);
    TaskViewModel(store, FetchTasks(store, faults.fetchFails))
  }

  /**
   `removeTask(at:)`: the index must address the array; the task there is
   deleted from the store and the array is patched locally, without a refetch.
   */
  function RemoveTask(vm: TaskViewModel, index: int, saveFails: bool): (r: TaskViewModel)
    requires 0 <= index < |vm.task|
    ensures |r.task| == |vm.task| - 1
    ensures r.task[..index] == vm.task[..index] && r.task[index..] == vm.task[index + 1..]
    ensures forall t :: t in r.store.objects ==> t.objectId != vm.task[index].objectId
    ensures forall t :: t in vm.store.objects && t.objectId != vm.task[index].objectId ==> t in r.store.objects
  {
    var store := CoreDataManager.DeleteTask(vm.store, vm.task[index], saveFails);
    TaskViewModel(store, vm.task[..index] + vm.task[index + 1..])
  }

  /**
   The local patch is as good as a refetch as long as the array was in step
   with a valid store before the removal.
   */
  lemma LocalPatchMatchesRefetch(vm: TaskViewModel, index: int, saveFails: bool)
    requires Valid(vm.store) && vm.task == vm.store.objects
    requires 0 <= index < |vm.task|
    ensures RemoveTask(vm, index, saveFails).task == FetchTasks(RemoveTask(vm, index, saveFails).store, false)
  {
    DeleteRemovesOne(vm.store, index, saveFails);
  }

  /**
   Once a fetch has failed the array is stale: a later removal still deletes
   from the store, and the patched array no longer matches it.
   */
  lemma StaleArrayDiverges(t: Task, u: Task)
    requires t.objectId != u.objectId
    ensures
      var store := Store([t, u], [t, u], 1 + t.objectId + u.objectId);
      var vm := TaskViewModel(store, [t]);
      var r := RemoveTask(vm, 0, false);
      r.task == [] && r.store.objects == [u]
  {
    var objs := [t, u];
    assert objs[1..] == [u] && [u][1..] == [];
  }

  /** `updateTask(at:with:)`: the index must address the array; rename that task, then refetch. */
  function UpdateTask(vm: TaskViewModel, index: int, newName: string, faults: Faults): (r: TaskViewModel)
    requires 0 <= index < |vm.task|
    ensures r.task == FetchTasks(r.store, faults.fetchFails)
    ensures |r.store.objects| == |vm.store.objects|
    ensures forall i :: 0 <= i < |vm.store.objects| ==>
      if vm.store.objects[i].objectId == vm.task[index].objectId
      then r.store.objects[i] == vm.store.objects[i].(taskName := Some(newName))
      else r.store.objects[i] == vm.store.objects[i]
  {
    var store := CoreDataManager.UpdateTask(vm.store, vm.task[index], newName, None, faults.saveFails);
    TaskViewModel(store, FetchTasks(store, faults.fetchFails))
  }
}

=== FILE: text_formatter_service.dfy ===
/**
 `TextFormatterService`: how a task's text is shown in the list. The first
 line is the title, bold, struck through and greyed when the task is
 completed; the rest is the description, in which dates written `dd.dd.dddd`
 are greyed while the task is open.
 */
module TextFormatterService {
  import opened Wrappers
  import opened Attributed
  import opened Characters

  // ---------------------------------------------------------------------------
  // Lines
  // ---------------------------------------------------------------------------

  /** A line: text without a newline. */
  predicate NoNewline(s: string)
  {
    forall j :: 0 <= j < |s| ==> s[j] != '\n'
  }

  /** The position of the first newline, if any. */
  function NewlineIndex(text: string): (r: Option<nat>)
    ensures r.Some? ==> r.value < |text| && text[r.value] == '\n' && NoNewline(text[..r.value])
    ensures r.None? ==> NoNewline(text)
  {
    if text == [] then None
    else if text[0] == '\n' then Some(0)
    else
      var rest := NewlineIndex(text[1..]);
      if rest.None? then None else Some(rest.value + 1)
  }

  /** `joined(separator: "\n")`. */
  function JoinLines(parts: seq<string>): string
  {
    if |parts| == 0 then ""
    else if |parts| == 1 then parts[0]
    else parts[0] + "\n" + JoinLines(parts[1..])
  }

  /** `components(separatedBy: "\n")`: the pieces between newlines, empty ones included. */
  function Components(text: string): (parts: seq<string>)
    ensures |parts| >= 1
    ensures forall j :: 0 <= j < |parts| ==> NoNewline(parts[j])
    ensures JoinLines(parts) == text
    decreases |text|
  {
    match NewlineIndex(text)
    case None => [text]
    case Some(i) =>
      var rest := Components(text[i + 1..]);
      var parts := [text[..i]] + rest;
      assert parts[1..] == rest;
      assert text == text[..i] + "\n" + text[i + 1..];
      parts
  }

  /**
   The title (the first component) and the description (the other components
   joined back with newlines).
   */
  function SplitTitle(text: string): (r: (string, string))
    ensures NoNewline(r.0)
    ensures NewlineIndex(text).None? ==> r == (text, "")
    ensures NewlineIndex(text).Some? ==> text == r.0 + "\n" + r.1 && |r.0| == NewlineIndex(text).value
  {
    var parts := Components(text);
    (parts[0], JoinLines(parts[1..]))
  }

  // ---------------------------------------------------------------------------
  // Dates in the description
  // ---------------------------------------------------------------------------

  /** The characters `\b` treats as part of a word: ASCII letters and digits, `_`, and Cyrillic. */
  predicate IsWordChar(c: char)
  {
    'a' <= c <= 'z' || 'A' <= c <= 'Z' || IsDigit(c) || c == '_' || '\U{0400}' <= c <= '\U{04FF}'
  }

  /** Length of a `dd.dd.dddd` match. */
  const DateLength: nat := 10

  /** `\d{2}\.\d{2}\.\d{4}` matches at position `i`. */
  predicate DateShapeAt(t: string, i: nat)
  {
    && i + DateLength <= |t|
    && IsDigit(t[i]) && IsDigit(t[i + 1]) && t[i + 2] == '.'
    && IsDigit(t[i + 3]) && IsDigit(t[i + 4]) && t[i + 5] == '.'
    && IsDigit(t[i + 6]) && IsDigit(t[i + 7]) && IsDigit(t[i + 8]) && IsDigit(t[i + 9])
  }

  /** The whole pattern `\b\d{2}\.\d{2}\.\d{4}\b` matches at position `i`. */
  predicate DateAt(t: string, i: nat)
  {
    && DateShapeAt(t, i)
    && (i == 0 || !IsWordChar(t[i - 1]))
    && (i + DateLength == |t| || !IsWordChar(t[i + DateLength]))
  }

  /** Position `k` lies inside some match. */
  ghost predicate InDate(t: string, k: int)
  {
    exists i: nat :: i <= k < i + DateLength && DateAt(t, i)
  }

  /** Two matches never overlap, so scanning left to right finds every match position. */
  lemma DatesDoNotOverlap(t: string, i: nat, j: nat)
    requires DateAt(t, i) && DateAt(t, j) && i < j
    ensures i + DateLength <= j
  {
  }

  /** If no match reaches past `i` from the left and one starts at `i`, no match reaches past its end. */
  lemma NothingCoversPastMatch(t: string, i: nat)
    requires DateAt(t, i)
    requires forall p: nat :: p < i && DateAt(t, p) ==> p + DateLength <= i
    ensures forall p: nat :: p < i + DateLength && DateAt(t, p) ==> p + DateLength <= i + DateLength
  {
    forall p: nat | p < i + DateLength && DateAt(t, p) ensures p + DateLength <= i + DateLength {
      if i < p {
        DatesDoNotOverlap(t, i, p);
      }
    }
  }

  /** The first match position at or after `i`, or the end of the text. */
  function NextDate(t: string, i: nat): (j: nat)
    requires i <= |t|
    ensures i <= j <= |t|
    ensures forall p :: i <= p < j ==> !DateAt(t, p)
    ensures j < |t| ==> DateAt(t, j)
    decreases |t| - i
  {
    if i == |t| || DateAt(t, i) then i else NextDate(t, i + 1)
  }

  /** Description text of an open task. */
  const BodyWhite: Style := Style(Some(System14), Some(CustomWhite), false)

  /** Description text of a completed task, and dates in an open one. */
  const BodyStroke: Style := Style(Some(System14), Some(Stroke), false)

  /** The segments for `t[i..]`: each match in `BodyStroke`, the text between matches in `BodyWhite`. */
  function Highlight(t: string, i: nat): (r: seq<Segment>)
    requires i <= |t|
    ensures Text(r) == t[i..]
    decreases |t| - i
  {
    if i == |t| then []
    else
      var j := if DateAt(t, i) then i + DateLength else NextDate(t, i);
      var style := if DateAt(t, i) then BodyStroke else BodyWhite;
      var r := [Segment(t[i..j], style)] + Highlight(t, j);
      assert r[1..] == Highlight(t, j);
      assert t[i..j] + t[j..] == t[i..];
      r
  }

  /** Every character of `Highlight(t, i)` is greyed exactly when it lies inside a match. */
  lemma {:induction false} HighlightStyles(t: string, i: nat, k: nat)
    requires i + k < |t|
    requires forall p: nat :: p < i && DateAt(t, p) ==> p + DateLength <= i
    ensures k < |Text(Highlight(t, i))|
    ensures StyleAt(Highlight(t, i), k) == if InDate(t, i + k) then BodyStroke else BodyWhite
    decreases |t| - i, 1
  {
    if DateAt(t, i) && k < DateLength {
      HighlightStylesInMatch(t, i, k);
    } else if DateAt(t, i) {
      HighlightStylesPastMatch(t, i, k);
    } else if i + k < NextDate(t, i) {
      HighlightStylesInGap(t, i, k);
    } else {
      HighlightStylesPastGap(t, i, k);
    }
  }

  /** `HighlightStyles` for a position inside the match that starts at `i`. */
  lemma HighlightStylesInMatch(t: string, i: nat, k: nat)
    requires i + k < |t| && DateAt(t, i) && k < DateLength
    ensures k < |Text(Highlight(t, i))|
    ensures StyleAt(Highlight(t, i), k) == if InDate(t, i + k) then BodyStroke else BodyWhite
  {
    var segs := Highlight(t, i);
    assert segs[0] == Segment(t[i..i + DateLength], BodyStroke);
    assert InDate(t, i + k);
  }

  /** `HighlightStyles` for a position past the match that starts at `i`. */
  lemma {:induction false} HighlightStylesPastMatch(t: string, i: nat, k: nat)
    requires i + k < |t| && DateAt(t, i) && DateLength <= k
    requires forall p: nat :: p < i && DateAt(t, p) ==> p + DateLength <= i
    ensures k < |Text(Highlight(t, i))|
    ensures StyleAt(Highlight(t, i), k) == if InDate(t, i + k) then BodyStroke else BodyWhite
    decreases |t| - i, 0
  {
    var segs := Highlight(t, i);
    var j := i + DateLength;
    assert segs[0] == Segment(t[i..j], BodyStroke) && segs[1..] == Highlight(t, j);
    NothingCoversPastMatch(t, i);
    assert i + k == j + (k - DateLength);
    HighlightStyles(t, j, k - DateLength);
  }

  /** Between `i` and the next match no position lies inside a match, when none reaches past `i` from the left. */
  lemma GapNotInDate(t: string, i: nat, x: nat)
    requires i <= x < |t| && x < NextDate(t, i)
    requires forall p: nat :: p < i && DateAt(t, p) ==> p + DateLength <= i
    ensures !InDate(t, x)
  {
    forall p: nat | p <= x < p + DateLength
      ensures !DateAt(t, p)
    {
    }
  }

  /** `HighlightStyles` for a position before the first match after `i`. */
  lemma HighlightStylesInGap(t: string, i: nat, k: nat)
    requires i + k < |t| && !DateAt(t, i) && i + k < NextDate(t, i)
    requires forall p: nat :: p < i && DateAt(t, p) ==> p + DateLength <= i
    ensures k < |Text(Highlight(t, i))|
    ensures StyleAt(Highlight(t, i), k) == if InDate(t, i + k) then BodyStroke else BodyWhite
  {
    var segs := Highlight(t, i);
    assert segs[0] == Segment(t[i..NextDate(t, i)], BodyWhite);
    GapNotInDate(t, i, i + k);
  }

  /** `HighlightStyles` for a position at or after the first match after `i`. */
  lemma {:induction false} HighlightStylesPastGap(t: string, i: nat, k: nat)
    requires i + k < |t| && !DateAt(t, i) && NextDate(t, i) <= i + k
    requires forall p: nat :: p < i && DateAt(t, p) ==> p + DateLength <= i
    ensures k < |Text(Highlight(t, i))|
    ensures StyleAt(Highlight(t, i), k) == if InDate(t, i + k) then BodyStroke else BodyWhite
    decreases |t| - i, 0
  {
    var segs := Highlight(t, i);
    var j := NextDate(t, i);
    assert segs[0] == Segment(t[i..j], BodyWhite) && segs[1..] == Highlight(t, j);
    assert i + k == j + (k - (j - i));
    HighlightStyles(t, j, k - (j - i));
  }

  /**
   `formatDescriptionText`: a completed task's description is greyed whole;
   an open task's is white with every date match greyed.
   */
  function FormatDescriptionText(text: string, isCompleted: bool): (r: seq<Segment>)
    ensures Text(r) == text
  {
    if isCompleted then [Segment(text, BodyStroke)] else Highlight(text, 0)
  }

  /** Styles of the formatted description, character by character. */
  lemma DescriptionStyles(text: string, isCompleted: bool, k: nat)
    requires k < |text|
    ensures StyleAt(FormatDescriptionText(text, isCompleted), k)
      == if isCompleted || InDate(text, k) then BodyStroke else BodyWhite
  {
    if !isCompleted {
      HighlightStyles(text, 0, k);
    }
  }

  // ---------------------------------------------------------------------------
  // The whole cell text
  // ---------------------------------------------------------------------------

  /** The title's attributes: bold 16, greyed and struck through when completed. */
  function TitleStyle(isCompleted: bool): Style
  {
    Style(Some(SfProTextBold16), Some(if isCompleted then Stroke else CustomWhite), isCompleted)
  }

  /** A text whose one newline is its last character: a title followed by an empty description. */
  predicate EndsWithOnlyNewline(s: string)
  {
    |s| > 0 && s[|s| - 1] == '\n' && NoNewline(s[..|s| - 1])
  }

  /**
   `formatTaskText`: the title, then, only when the description is not empty,
   a newline and the formatted description.
   */
  function FormatTaskText(text: string, isCompleted: bool): (r: seq<Segment>)
    ensures Text(r) == if EndsWithOnlyNewline(text) then text[..|text| - 1] else text
  {
    var (title, description) := SplitTitle(text);
    var head := Segment(title, TitleStyle(isCompleted));
    ShownText(text);
    if description != "" then Titled(head, FormatDescriptionText(description, isCompleted))
    else [head]
  }

  /** What the cell shows: the title, then the description only when it is not empty. */
  lemma ShownText(text: string)
    ensures var (title, description) := SplitTitle(text);
      (if description == "" then title else title + "\n" + description)
      == if EndsWithOnlyNewline(text) then text[..|text| - 1] else text
  {
    var (title, description) := SplitTitle(text);
    if NewlineIndex(text).None? {
      assert !EndsWithOnlyNewline(text) by {
        if |text| > 0 { assert text[|text| - 1] != '\n'; }
      }
    } else if description == "" {
      assert text == title + "\n";
      assert text[..|text| - 1] == title;
    } else {
      assert text[..|text| - 1][|title|] == '\n';
    }
  }

  /**
   The styles of the cell text: only title characters are struck through and
   only for a completed task; the title is greyed iff the task is completed;
   description characters are styled as `formatDescriptionText` styles them.
   */
  lemma TaskTextStyles(text: string, isCompleted: bool, k: nat)
    requires k < |Text(FormatTaskText(text, isCompleted))|
    ensures var title := SplitTitle(text).0;
      var style := StyleAt(FormatTaskText(text, isCompleted), k);
      && (style.strikethrough <==> isCompleted && k < |title|)
      && (k < |title| ==> style.font == Some(SfProTextBold16))
      && (k < |title| ==> style.color == Some(if isCompleted then Stroke else CustomWhite))
      && (k == |title| ==> style == Plain)
      && (k > |title| ==> style == if isCompleted || InDate(SplitTitle(text).1, k - |title| - 1) then BodyStroke else BodyWhite)
  {
    var (title, description) := SplitTitle(text);
    var head := Segment(title, TitleStyle(isCompleted));
    if description != "" {
      var desc := FormatDescriptionText(description, isCompleted);
      TitledStyles(head, desc, k);
      if k > |title| {
        DescriptionStyles(description, isCompleted, k - |title| - 1);
      }
    }
  }
}

=== FILE: todo_view_model.dfy ===
/**
 `ToDoViewModel`: the list screen's state. `tasks` is a cache of the store,
 replaced by a full fetch after every mutation; `filteredTasks` and
 `tasksCountText` are the two Combine bindings, recomputed whenever `tasks`
 or the search text change. Combine is modelled by recomputing the bound
 values at each assignment, and the background queue of the sync by running
 it in sequence.
 */
module ToDoViewModel {
  import opened Wrappers
  import TaskModel
  import opened CoreDataManager
  import opened SearchFilter
  import opened Characters

  // ---------------------------------------------------------------------------
  // The count label
  // ---------------------------------------------------------------------------

  predicate AllDigits(s: string)
  {
    forall i :: 0 <= i < |s| ==> IsDigit(s[i])
  }

  function DigitChar(d: nat): (c: char)
    requires d < 10
    ensures IsDigit(c)
  {
    ('0' as int + d) as char
  }

  function DigitValue(c: char): (d: nat)
    requires IsDigit(c)
    ensures d < 10
  {
    c as int - '0' as int
  }

  /** The number a string of decimal digits denotes. */
  function DecimalValue(s: string): nat
    requires AllDigits(s)
  {
    if s == [] then 0 else DecimalValue(s[..|s| - 1]) * 10 + DigitValue(s[|s| - 1])
  }

  /** String interpolation of an `Int` count: decimal digits without leading zeros. */
  function DecimalString(n: nat): (s: string)
    ensures |s| >= 1 && AllDigits(s)
    ensures s[0] == '0' ==> n == 0 && |s| == 1
    ensures DecimalValue(s) == n
  {
    if n < 10 then [DigitChar(n)]
    else
      var prefix := DecimalString(n / 10);
      var s := prefix + [DigitChar(n % 10)];
      assert s[..|s| - 1] == prefix;
      s
  }

  /** The word after the count: " задач". */
  const TasksSuffix: string := " \U{0437}\U{0430}\U{0434}\U{0430}\U{0447}"

  /** The `tasksCountText` binding for a list of `n` tasks. */
  function CountText(n: nat): (s: string)
    ensures |s| > |TasksSuffix| && s[|s| - |TasksSuffix|..] == TasksSuffix
    ensures AllDigits(s[..|s| - |TasksSuffix|])
    ensures s[0] == '0' ==> n == 0 && |s| == |TasksSuffix| + 1
  {
    var digits := DecimalString(n);
    var s := digits + TasksSuffix;
    assert s[..|s| - |TasksSuffix|] == digits;
    s
  }

  /** Reads a count label back: the number in front of " задач", if the text has that shape. */
  function ParseCountText(s: string): Option<nat>
  {
    if |s| > |TasksSuffix| && s[|s| - |TasksSuffix|..] == TasksSuffix && AllDigits(s[..|s| - |TasksSuffix|])
    then Some(DecimalValue(s[..|s| - |TasksSuffix|]))
    else None
  }

  /** The label always names the exact count, and different counts give different labels. */
  lemma CountTextRoundTrip(n: nat)
    ensures ParseCountText(CountText(n)) == Some(n)
  {
    var s := CountText(n);
    assert s[..|s| - |TasksSuffix|] == DecimalString(n);
  }

  // ---------------------------------------------------------------------------
  // State
  // ---------------------------------------------------------------------------

  /** The persistence-layer calls an operation makes, in order. */
  datatype StoreCall =
    | AddTaskCall
    | FetchTasksCall
    | DeleteTaskCall(objectId: nat)
    | UpdateTaskCall(objectId: nat)
    | IsTaskExistsCall(id: int)
    | AddTaskFromAPICall(id: int)

  datatype ViewModel = ViewModel(
    store: Store,
    tasks: seq<Task>,
    searchText: string,
    filteredTasks: seq<Task>,
    tasksCountText: string)

  /** The view model after an operation and the store calls the operation made. */
  datatype Step = Step(vm: ViewModel, calls: seq<StoreCall>)

  /** Both bindings agree with `tasks` and the search text. */
  predicate BindingsHold(vm: ViewModel)
  {
    && vm.filteredTasks == Filter(vm.tasks, vm.searchText)
    && vm.tasksCountText == CountText(|vm.tasks|)
  }

  /** The cache is what a fetch from the store yields. */
  predicate Loaded(vm: ViewModel, fetchFails: bool)
  {
    vm.tasks == FetchTasks(vm.store, fetchFails)
  }

  /** The calls end with the one and only reload. */
  predicate EndsWithOneReload(calls: seq<StoreCall>)
  {
    && |calls| > 0
    && calls[|calls| - 1] == FetchTasksCall
    && forall i :: 0 <= i < |calls| - 1 ==> calls[i] != FetchTasksCall
  }

  /** Assigning `tasks` fires both bindings. */
  function Publish(vm: ViewModel, tasks: seq<Task>): (r: ViewModel)
    ensures BindingsHold(r)
    ensures r.tasks == tasks && r.store == vm.store && r.searchText == vm.searchText
  {
    vm.(tasks := tasks,
        filteredTasks := Filter(tasks, vm.searchText),
        tasksCountText := CountText(|tasks|))
  }

  /** `loadTasks`: replace the cache with a fresh fetch. */
  function LoadTasks(vm: ViewModel, faults: Faults): (r: Step)
    ensures r.vm.store == vm.store && r.vm.searchText == vm.searchText
    ensures Loaded(r.vm, faults.fetchFails) && BindingsHold(r.vm)
    ensures r.calls == [FetchTasksCall]
  {
    Step(Publish(vm, FetchTasks(vm.store, faults.fetchFails)), [FetchTasksCall])
  }

  /** `init`: empty cache and search, bindings set up, then one load. */
  function Init(store: Store, faults: Faults): (r: Step)
    ensures r.vm.store == store && r.vm.searchText == ""
    ensures Loaded(r.vm, faults.fetchFails) && BindingsHold(r.vm)
    ensures !faults.fetchFails ==> r.vm.filteredTasks == store.objects
    ensures EndsWithOneReload(r.calls)
  {
    var blank := ViewModel(store, [], "", [], CountText(0));
    LoadTasks(Publish(blank, []), faults)
  }

  /** `addTask`: insert through the store, then reload. */
  function AddTask(vm: ViewModel, taskName: string, isCompleted: bool, creationDate: Date, faults: Faults): (r: Step)
    ensures Loaded(r.vm, faults.fetchFails) && BindingsHold(r.vm) && r.vm.searchText == vm.searchText
    ensures r.calls == [AddTaskCall, FetchTasksCall] && EndsWithOneReload(r.calls)
    ensures |r.vm.store.objects| == |vm.store.objects| + 1
    ensures r.vm.store.objects[..|vm.store.objects|] == vm.store.objects
    ensures r.vm.store.objects[|vm.store.objects|].taskName == Some(taskName)
    ensures r.vm.store.objects[|vm.store.objects|].isCompleted == isCompleted
    ensures r.vm.store.objects[|vm.store.objects|].id == NoId
    ensures r.vm.store.objects[|vm.store.objects|].creationDate == Some(creationDate)
    ensures !faults.fetchFails ==>
      && r.vm.tasks[..|vm.store.objects|] == vm.store.objects
      && r.vm.tasks[|vm.store.objects|].taskName == Some(taskName)
      && r.vm.tasks[|vm.store.objects|].isCompleted == isCompleted
    ensures Valid(vm.store) ==> Valid(r.vm.store)
  {
    var store := CoreDataManager.AddTask(vm.store, taskName, isCompleted, Some(creationDate), faults.saveFails);
    var loaded := LoadTasks(vm.(store := store), faults);
    Step(loaded.vm, [AddTaskCall] + loaded.calls)
  }

  /** `removeTask(at:)`: the index must address the cache; delete that task, then reload. */
  function RemoveTask(vm: ViewModel, index: int, faults: Faults): (r: Step)
    requires 0 <= index < |vm.tasks|
    ensures Loaded(r.vm, faults.fetchFails) && BindingsHold(r.vm) && r.vm.searchText == vm.searchText
    ensures r.calls == [DeleteTaskCall(vm.tasks[index].objectId), FetchTasksCall] && EndsWithOneReload(r.calls)
    ensures forall t :: t in r.vm.store.objects ==> t.objectId != vm.tasks[index].objectId
    ensures forall t :: t in vm.store.objects && t.objectId != vm.tasks[index].objectId ==> t in r.vm.store.objects
    ensures Valid(vm.store) ==> Valid(r.vm.store)
  {
    var victim := vm.tasks[index];
    var store := CoreDataManager.DeleteTask(vm.store, victim, faults.saveFails);
    var loaded := LoadTasks(vm.(store := store), faults);
    Step(loaded.vm, [DeleteTaskCall(victim.objectId)] + loaded.calls)
  }

  /** When the cache was in step with a valid store, removing a position yields the cache without that position. */
  lemma RemoveTaskDropsPosition(vm: ViewModel, index: int, faults: Faults)
    requires Valid(vm.store) && Loaded(vm, faults.fetchFails) && !faults.fetchFails
    requires 0 <= index < |vm.tasks|
    ensures RemoveTask(vm, index, faults).vm.tasks == vm.tasks[..index] + vm.tasks[index + 1..]
    ensures |RemoveTask(vm, index, faults).vm.tasks| == |vm.tasks| - 1
    ensures vm.tasks[index] !in RemoveTask(vm, index, faults).vm.tasks
  {
    DeleteRemovesOne(vm.store, index, faults.saveFails);
  }

  /** `updateTask(at:with:newDate:)`: the index must address the cache; rename that task, then reload. */
  function UpdateTask(vm: ViewModel, index: int, newName: string, newDate: Date, faults: Faults): (r: Step)
    requires 0 <= index < |vm.tasks|
    ensures Loaded(r.vm, faults.fetchFails) && BindingsHold(r.vm) && r.vm.searchText == vm.searchText
    ensures r.calls == [UpdateTaskCall(vm.tasks[index].objectId), FetchTasksCall] && EndsWithOneReload(r.calls)
    ensures |r.vm.store.objects| == |vm.store.objects|
    ensures forall i :: 0 <= i < |vm.store.objects| ==>
      if vm.store.objects[i].objectId == vm.tasks[index].objectId
      then r.vm.store.objects[i] == vm.store.objects[i].(taskName := Some(newName), creationDate := Some(newDate))
      else r.vm.store.objects[i] == vm.store.objects[i]
    ensures Valid(vm.store) ==> Valid(r.vm.store)
  {
    var target := vm.tasks[index];
    var store := CoreDataManager.UpdateTask(vm.store, target, newName, Some(newDate), faults.saveFails);
    var loaded := LoadTasks(vm.(store := store), faults);
    Step(loaded.vm, [UpdateTaskCall(target.objectId)] + loaded.calls)
  }

  /** `updateSearchText`: a new search text re-runs the filter over the unchanged cache. */
  function UpdateSearchText(vm: ViewModel, text: string): (r: ViewModel)
    ensures r.store == vm.store && r.tasks == vm.tasks && r.searchText == text
    ensures BindingsHold(vm) ==> BindingsHold(r)
    ensures text == "" ==> r.filteredTasks == vm.tasks
  {
    vm.(searchText := text, filteredTasks := Filter(vm.tasks, text))
  }

  // ---------------------------------------------------------------------------
  // Sync from the remote feed
  // ---------------------------------------------------------------------------

  /** Why the remote feed could not be fetched; the transport layer is not part of this model. */
  datatype FetchError = FetchError(description: string)

  /** The value the sync publisher delivers. */
  datatype SyncOutcome = Synced | SyncFailed(error: FetchError)

  /** The store after the import loop and the calls the loop made. */
  datatype MergeRun = MergeRun(store: Store, calls: seq<StoreCall>)

  /** Some record of the feed carries external id `x`. */
  ghost predicate InFeed(feed: seq<TaskModel.TaskModel>, x: int)
  {
    exists m :: m in feed && m.id as int == x
  }

  /** The id a single call queries, if it is an existence query. */
  function CheckedBy(c: StoreCall): seq<int>
  {
    if c.IsTaskExistsCall? then [c.id] else []
  }

  /** The ids whose existence the calls query, in order. */
  function Checked(calls: seq<StoreCall>): seq<int>
  {
    if calls == [] then [] else CheckedBy(calls[0]) + Checked(calls[1..])
  }

  lemma {:induction false} CheckedAppend(a: seq<StoreCall>, b: seq<StoreCall>)
    ensures Checked(a + b) == Checked(a) + Checked(b)
  {
    if a == [] {
      assert a + b == b;
    } else {
      var ab := a + b;
      assert ab[0] == a[0] && ab[1..] == a[1..] + b;
      CheckedAppend(a[1..], b);
      assert Checked(ab) == CheckedBy(a[0]) + (Checked(a[1..]) + Checked(b));
    }
  }

  /** The external ids of the feed's records, in feed order. */
  function FeedIds(feed: seq<TaskModel.TaskModel>): (r: seq<int>)
    ensures |r| == |feed| && forall i :: 0 <= i < |feed| ==> r[i] == feed[i].id as int
  {
    if feed == [] then [] else [feed[0].id as int] + FeedIds(feed[1..])
  }

  /**
   The loop of `syncTasksFromAPI`: for each record in order, ask whether a task
   with its id exists and import it if not. The store is never reloaded here.
   */
  function MergeFeed(store: Store, feed: seq<TaskModel.TaskModel>, faults: Faults): (r: MergeRun)
    ensures |r.store.objects| >= |store.objects| && r.store.objects[..|store.objects|] == store.objects
    ensures FetchTasksCall !in r.calls
    ensures Valid(store) ==> Valid(r.store)
    decreases |feed|
  {
    if feed == [] then MergeRun(store, [])
    else
      var m := feed[0];
      var known := IsTaskExists(store, m.id as int, faults.countFails);
      var next := if known then store else AddTaskFromAPI(store, m, faults.saveFails);
      var calls := [IsTaskExistsCall(m.id as int)] + (if known then [] else [AddTaskFromAPICall(m.id as int)]);
      var rest := MergeFeed(next, feed[1..], faults);
      assert rest.store.objects[..|store.objects|] == next.objects[..|store.objects|];
      MergeRun(rest.store, calls + rest.calls)
  }

  /** The loop asks about every record of the feed exactly once, in feed order. */
  lemma {:induction false} MergeChecksEveryRecord(store: Store, feed: seq<TaskModel.TaskModel>, faults: Faults)
    ensures Checked(MergeFeed(store, feed, faults).calls) == FeedIds(feed)
    decreases |feed|
  {
    if feed != [] {
      var m := feed[0];
      var known := IsTaskExists(store, m.id as int, faults.countFails);
      var next := if known then store else AddTaskFromAPI(store, m, faults.saveFails);
      var calls := [IsTaskExistsCall(m.id as int)] + (if known then [] else [AddTaskFromAPICall(m.id as int)]);
      var rest := MergeFeed(next, feed[1..], faults);
      assert MergeFeed(store, feed, faults).calls == calls + rest.calls;
      MergeChecksEveryRecord(next, feed[1..], faults);
      CheckedAppend(calls, rest.calls);
      var after := if known then [] else [AddTaskFromAPICall(m.id as int)];
      assert calls[0] == IsTaskExistsCall(m.id as int) && calls[1..] == after;
      assert Checked(after) == [] by {
        if !known {
          assert after[1..] == [];
        }
      }
      assert Checked(calls) == [m.id as int];
    }
  }

  /** The run of `syncTasksFromAPI` together with the value it publishes. */
  datatype SyncRun = SyncRun(step: Step, outcome: SyncOutcome)

  /**
   `syncTasksFromAPI`: `fetched` is what the remote source delivered. A failure
   is passed on and nothing is touched; on success every record is merged and
   the cache is reloaded once, after the loop.
   */
  function SyncTasksFromAPI(vm: ViewModel, fetched: Result<seq<TaskModel.TaskModel>, FetchError>, faults: Faults): (r: SyncRun)
    ensures fetched.Failure? ==> r.step.vm == vm && r.step.calls == [] && r.outcome == SyncFailed(fetched.error)
    ensures fetched.Success? ==>
      && r.outcome == Synced
      && EndsWithOneReload(r.step.calls)
      && Loaded(r.step.vm, faults.fetchFails)
      && BindingsHold(r.step.vm)
      && r.step.vm.searchText == vm.searchText
      && |r.step.vm.store.objects| >= |vm.store.objects|
      && r.step.vm.store.objects[..|vm.store.objects|] == vm.store.objects
    ensures Valid(vm.store) ==> Valid(r.step.vm.store)
  {
    match fetched
    case Failure(e) => SyncRun(Step(vm, []), SyncFailed(e))
    case Success(feed) =>
      var run := MergeFeed(vm.store, feed, faults);
      var loaded := LoadTasks(vm.(store := run.store), faults);
      assert forall i :: 0 <= i < |run.calls| ==> run.calls[i] in run.calls;
      SyncRun(Step(loaded.vm, run.calls + loaded.calls), Synced)
  }

  // ---------------------------------------------------------------------------
  // Properties of the sync
  // ---------------------------------------------------------------------------

  lemma {:induction false} CountAppend(a: seq<Task>, b: seq<Task>, e: ExternalId)
    ensures CountWithId(a + b, e) == CountWithId(a, e) + CountWithId(b, e)
  {
    if a == [] {
      assert a + b == b;
    } else {
      assert (a + b)[1..] == a[1..] + b;
      CountAppend(a[1..], b, e);
    }
  }

  /** A record is in the feed iff it is the first one or in the rest. */
  lemma InFeedCons(feed: seq<TaskModel.TaskModel>, x: int)
    requires feed != []
    ensures InFeed(feed, x) <==> feed[0].id as int == x || InFeed(feed[1..], x)
  {
    assert feed == [feed[0]] + feed[1..];
  }

  /**
   With existence queries answering truthfully, a run leaves the number of
   tasks carrying id `x` as it was, except that an id absent from the store
   and present in the feed ends up carried by exactly one task, however often
   the feed repeats it.
   */
  lemma {:induction false} MergeCount(store: Store, feed: seq<TaskModel.TaskModel>, faults: Faults, x: int)
    requires !faults.countFails
    ensures CountWithId(MergeFeed(store, feed, faults).store.objects, Id(x)) ==
      if CountWithId(store.objects, Id(x)) == 0 && InFeed(feed, x) then 1 else CountWithId(store.objects, Id(x))
    decreases |feed|
  {
    if feed != [] {
      var m := feed[0];
      var known := IsTaskExists(store, m.id as int, faults.countFails);
      var next := if known then store else AddTaskFromAPI(store, m, faults.saveFails);
      assert MergeFeed(store, feed, faults).store == MergeFeed(next, feed[1..], faults).store;
      MergeCount(next, feed[1..], faults, x);
      InFeedCons(feed, x);
      if !known {
        ImportCount(store, m, faults.saveFails, x);
      }
    }
  }

  /** Position `i` holds the feed's first record with external id `x`. */
  predicate FirstAt(feed: seq<TaskModel.TaskModel>, x: int, i: int)
  {
    && 0 <= i < |feed|
    && feed[i].id as int == x
    && forall j :: 0 <= j < i ==> feed[j].id as int != x
  }

  /** The first record of the feed that carries external id `x`, if any. */
  function FirstWithId(feed: seq<TaskModel.TaskModel>, x: int): (r: Option<TaskModel.TaskModel>)
    ensures r.Some? <==> InFeed(feed, x)
    ensures r.Some? ==> exists i :: FirstAt(feed, x, i) && feed[i] == r.value
    decreases |feed|
  {
    if feed == [] then None
    else
      InFeedCons(feed, x);
      if feed[0].id as int == x then
        assert FirstAt(feed, x, 0);
        Some(feed[0])
      else
        var r := FirstWithId(feed[1..], x);
        FirstWithIdStep(feed, x, r);
        r
  }

  /** A first occurrence in the rest of the feed is one in the feed when the head carries another id. */
  lemma FirstWithIdStep(feed: seq<TaskModel.TaskModel>, x: int, r: Option<TaskModel.TaskModel>)
    requires feed != [] && feed[0].id as int != x
    requires r.Some? ==> exists i :: FirstAt(feed[1..], x, i) && feed[1..][i] == r.value
    ensures r.Some? ==> exists i :: FirstAt(feed, x, i) && feed[i] == r.value
  {
    if r.Some? {
      var i :| FirstAt(feed[1..], x, i) && feed[1..][i] == r.value;
      assert feed[i + 1] == r.value;
      forall j | 0 < j < i + 1 ensures feed[j].id as int != x {
        assert feed[j] == feed[1..][j - 1];
      }
      assert FirstAt(feed, x, i + 1);
    }
  }

  /** The task a record with a new id is imported as: its text and flag, and no creation date. */
  predicate ImportedFrom(t: Task, f: TaskModel.TaskModel)
  {
    t.id == Id(f.id as int) && t.taskName == Some(f.todo) && t.isCompleted == f.isCompleted && t.creationDate == None
  }

  /**
   Once the task imported for `x` is the only one carrying `x`, later records
   with that id leave it alone.
   */
  lemma ImportedStays(store: Store, added: Task, rest: seq<TaskModel.TaskModel>, faults: Faults, x: int)
    requires !faults.countFails && CountWithId(store.objects, Id(x)) == 1
    requires added in store.objects && added.id == Id(x)
    ensures var objs := MergeFeed(store, rest, faults).store.objects;
      CountWithId(objs, Id(x)) == 1 && forall t :: t in objs && t.id == Id(x) ==> t == added
  {
    var objs := MergeFeed(store, rest, faults).store.objects;
    MergeCount(store, rest, faults, x);
    OnlyCarrier(store.objects, objs, Id(x), added);
  }

  /** A longer list with no more carriers of `e` than its prefix has only the prefix's one carrier. */
  lemma OnlyCarrier(prefix: seq<Task>, objs: seq<Task>, e: ExternalId, added: Task)
    requires |objs| >= |prefix| && objs[..|prefix|] == prefix
    requires CountWithId(prefix, e) == 1 && CountWithId(objs, e) == 1
    requires added in prefix && added.id == e
    ensures forall t :: t in objs && t.id == e ==> t == added
  {
    var tail := objs[|prefix|..];
    assert objs == prefix + tail;
    CountAppend(prefix, tail, e);
    forall t | t in objs && t.id == e
      ensures t == added
    {
      assert t in prefix;
      CountOne(prefix, e, added, t);
    }
  }

  /** Two objects carrying an id that only one object carries are the same object. */
  lemma {:induction false} CountOne(objs: seq<Task>, e: ExternalId, a: Task, b: Task)
    requires CountWithId(objs, e) == 1
    requires a in objs && b in objs && a.id == e && b.id == e
    ensures a == b
  {
    assert objs == [objs[0]] + objs[1..];
    if objs[0].id == e {
      assert CountWithId(objs[1..], e) == 0;
    } else {
      CountOne(objs[1..], e, a, b);
    }
  }

  /**
   What the sync writes for a new id: with existence queries answering
   truthfully, an id the store does not carry and the feed does ends up on one
   task, imported from the feed's FIRST record with that id; later records
   with the same id are skipped.
   */
  lemma {:induction false} MergeImportsFirstRecord(store: Store, feed: seq<TaskModel.TaskModel>, faults: Faults, x: int)
    requires !faults.countFails && CountWithId(store.objects, Id(x)) == 0
    requires FirstWithId(feed, x).Some?
    ensures var objs := MergeFeed(store, feed, faults).store.objects;
      && CountWithId(objs, Id(x)) == 1
      && forall t :: t in objs && t.id == Id(x) ==> ImportedFrom(t, FirstWithId(feed, x).value)
    decreases |feed|
  {
    var m := feed[0];
    var known := IsTaskExists(store, m.id as int, faults.countFails);
    var next := if known then store else AddTaskFromAPI(store, m, faults.saveFails);
    assert MergeFeed(store, feed, faults).store == MergeFeed(next, feed[1..], faults).store;
    if m.id as int == x {
      var added := next.objects[|store.objects|];
      assert next.objects == store.objects + [added];
      ImportCount(store, m, faults.saveFails, x);
      ImportedStays(next, added, feed[1..], faults, x);
    } else {
      if !known {
        ImportCount(store, m, faults.saveFails, x);
      }
      MergeImportsFirstRecord(next, feed[1..], faults, x);
    }
  }

  /** Every task of `after` past the length of `before` is imported from some record of the feed. */
  ghost predicate AppendsOnlyImports(before: seq<Task>, after: seq<Task>, feed: seq<TaskModel.TaskModel>)
  {
    forall k :: |before| <= k < |after| ==> exists f :: f in feed && ImportedFrom(after[k], f)
  }

  /**
   The loop writes nothing but imports: whatever the faults, every task it
   appends after the existing ones is imported from some record of the feed.
   */
  lemma {:induction false} MergeAppendsOnlyImports(store: Store, feed: seq<TaskModel.TaskModel>, faults: Faults)
    ensures AppendsOnlyImports(store.objects, MergeFeed(store, feed, faults).store.objects, feed)
    decreases |feed|
  {
    var objs := MergeFeed(store, feed, faults).store.objects;
    if feed != [] {
      var m := feed[0];
      var known := IsTaskExists(store, m.id as int, faults.countFails);
      var next := if known then store else AddTaskFromAPI(store, m, faults.saveFails);
      assert objs == MergeFeed(next, feed[1..], faults).store.objects;
      MergeAppendsOnlyImports(next, feed[1..], faults);
      forall k | |store.objects| <= k < |objs|
        ensures exists f :: f in feed && ImportedFrom(objs[k], f)
      {
        if k < |next.objects| {
          assert !known && objs[k] == next.objects[k];
          assert ImportedFrom(objs[k], m) && m in feed;
        } else {
          assert |next.objects| <= k < |MergeFeed(next, feed[1..], faults).store.objects|;
          var f :| f in feed[1..] && ImportedFrom(objs[k], f);
          assert f in feed;
        }
      }
    }
  }

  /** The sync's store is the prior store followed by tasks imported from the feed, and nothing else. */
  lemma SyncAppendsOnlyImports(vm: ViewModel, feed: seq<TaskModel.TaskModel>, faults: Faults)
    ensures var objs := SyncTasksFromAPI(vm, Success(feed), faults).step.vm.store.objects;
      && objs[..|vm.store.objects|] == vm.store.objects
      && AppendsOnlyImports(vm.store.objects, objs, feed)
  {
    MergeAppendsOnlyImports(vm.store, feed, faults);
  }

  /** The same for the whole sync: a new id's one task is imported from the first record with that id. */
  lemma SyncImportsFirstRecord(vm: ViewModel, feed: seq<TaskModel.TaskModel>, faults: Faults, x: int)
    requires !faults.countFails && CountWithId(vm.store.objects, Id(x)) == 0
    requires FirstWithId(feed, x).Some?
    ensures var objs := SyncTasksFromAPI(vm, Success(feed), faults).step.vm.store.objects;
      && CountWithId(objs, Id(x)) == 1
      && forall t :: t in objs && t.id == Id(x) ==> ImportedFrom(t, FirstWithId(feed, x).value)
  {
    MergeImportsFirstRecord(vm.store, feed, faults, x);
  }

  /** Importing a record adds one task carrying its id. */
  lemma ImportCount(store: Store, m: TaskModel.TaskModel, saveFails: bool, x: int)
    ensures CountWithId(AddTaskFromAPI(store, m, saveFails).objects, Id(x))
      == CountWithId(store.objects, Id(x)) + if m.id as int == x then 1 else 0
  {
    var next := AddTaskFromAPI(store, m, saveFails);
    var added := next.objects[|store.objects|];
    assert next.objects == store.objects + [added];
    CountAppend(store.objects, [added], Id(x));
    assert [added][1..] == [];
  }

  /** After a run every id of the feed is carried by some task. */
  lemma MergeCoversFeed(store: Store, feed: seq<TaskModel.TaskModel>, faults: Faults)
    requires !faults.countFails
    ensures forall m :: m in feed ==>
      exists t :: t in MergeFeed(store, feed, faults).store.objects && t.id == Id(m.id as int)
  {
    forall m | m in feed
      ensures exists t :: t in MergeFeed(store, feed, faults).store.objects && t.id == Id(m.id as int)
    {
      MergeCount(store, feed, faults, m.id as int);
    }
  }

  /** A run over records that are all known already changes nothing and imports nothing. */
  lemma {:induction false} MergeKnownFeed(store: Store, feed: seq<TaskModel.TaskModel>, faults: Faults)
    requires !faults.countFails
    requires forall m :: m in feed ==> exists t :: t in store.objects && t.id == Id(m.id as int)
    ensures MergeFeed(store, feed, faults).store == store
    ensures forall c :: c in MergeFeed(store, feed, faults).calls ==> c.IsTaskExistsCall?
    decreases |feed|
  {
    if feed != [] {
      assert feed[0] in feed;
      assert forall m :: m in feed[1..] ==> m in feed;
      MergeKnownFeed(store, feed[1..], faults);
    }
  }

  /** Running the sync a second time over the same feed leaves the view model exactly as the first run left it. */
  lemma SyncIdempotent(vm: ViewModel, feed: seq<TaskModel.TaskModel>, faults: Faults)
    requires !faults.countFails
    ensures
      var once := SyncTasksFromAPI(vm, Success(feed), faults).step.vm;
      var twice := SyncTasksFromAPI(once, Success(feed), faults);
      twice.step.vm == once && forall c :: c in twice.step.calls ==> c.IsTaskExistsCall? || c == FetchTasksCall
  {
    var once := SyncTasksFromAPI(vm, Success(feed), faults).step.vm;
    MergeCoversFeed(vm.store, feed, faults);
    MergeKnownFeed(once.store, feed, faults);
  }

  /** No two tasks carry the same external id. */
  ghost predicate UniqueExternalIds(objs: seq<Task>)
  {
    forall x :: CountWithId(objs, Id(x)) <= 1
  }

  /** The sync never creates a second task for an external id, even when the feed repeats one. */
  lemma SyncKeepsExternalIdsUnique(vm: ViewModel, feed: seq<TaskModel.TaskModel>, faults: Faults)
    requires !faults.countFails && UniqueExternalIds(vm.store.objects)
    ensures UniqueExternalIds(SyncTasksFromAPI(vm, Success(feed), faults).step.vm.store.objects)
  {
    forall x ensures CountWithId(SyncTasksFromAPI(vm, Success(feed), faults).step.vm.store.objects, Id(x)) <= 1 {
      MergeCount(vm.store, feed, faults, x);
    }
  }

  /** When every existence query fails, each record is imported, duplicates included. */
  lemma {:induction false} MergeWithFailingCount(store: Store, feed: seq<TaskModel.TaskModel>, faults: Faults)
    requires faults.countFails
    ensures |MergeFeed(store, feed, faults).store.objects| == |store.objects| + |feed|
    decreases |feed|
  {
    if feed != [] {
      var next := AddTaskFromAPI(store, feed[0], faults.saveFails);
      MergeWithFailingCount(next, feed[1..], faults);
    }
  }

  /** An empty store and a feed of two records: two tasks, in feed order, with the feed's ids and flags. */
  lemma EmptyStoreScenario(u: TaskModel.SwiftInt)
    ensures
      var feed := [TaskModel.TaskModel(1, "A", false, u), TaskModel.TaskModel(2, "B", true, u)];
      var vm := Init(EmptyStore, NoFaults).vm;
      var tasks := SyncTasksFromAPI(vm, Success(feed), NoFaults).step.vm.tasks;
      && |tasks| == 2
      && tasks[0].id == Id(1) && tasks[0].taskName == Some("A") && !tasks[0].isCompleted
      && tasks[1].id == Id(2) && tasks[1].taskName == Some("B") && tasks[1].isCompleted
  {
    var feed := [TaskModel.TaskModel(1, "A", false, u), TaskModel.TaskModel(2, "B", true, u)];
    var s1 := AddTaskFromAPI(EmptyStore, feed[0], false);
    assert !IsTaskExists(s1, 2, false) by {
      assert s1.objects == [s1.objects[0]];
    }
    assert feed[1..] == [feed[1]] && [feed[1]][1..] == [];
    var s2 := AddTaskFromAPI(s1, feed[1], false);
    assert !IsTaskExists(EmptyStore, 1, false);
    assert MergeFeed(s1, [feed[1]], NoFaults).store == MergeFeed(s2, [], NoFaults).store == s2;
    assert MergeFeed(EmptyStore, feed, NoFaults).store == MergeFeed(s1, feed[1..], NoFaults).store;
    assert s2.objects[..1] == s1.objects;
  }

  /** A record whose id is already stored does not overwrite the stored task. */
  lemma InsertOnlyScenario(prior: Task, text: string, done: bool, u: TaskModel.SwiftInt)
    requires prior.id == Id(5)
    ensures
      var store := Store([prior], [prior], prior.objectId + 1);
      var vm := Init(store, NoFaults).vm;
      var after := SyncTasksFromAPI(vm, Success([TaskModel.TaskModel(5, text, done, u)]), NoFaults).step.vm;
      after.tasks == [prior]
  {
    var store := Store([prior], [prior], prior.objectId + 1);
    var m := TaskModel.TaskModel(5, text, done, u);
    assert prior in store.objects;
    assert IsTaskExists(store, 5, false);
    assert [m][1..] == [];
    assert MergeFeed(store, [m], NoFaults).store == MergeFeed(store, [], NoFaults).store == store;
  }
}

=== FILE: wrappers.dfy ===
/** Optional values and success/failure results shared by every module of the model. */
module Wrappers {

  /** Swift's `Optional`: `None` plays the role of `nil`. */
  datatype Option<+T> = None | Some(value: T)

  /** Swift's `Result<Success, Failure>`; usable with `:-` like a throwing call. */
  datatype Result<+T, +E> = Success(value: T) | Failure(error: E) {

    predicate IsFailure() {
      Failure?
    }

    function PropagateFailure<U>(): Result<U, E>
      requires Failure?
    {
      Failure(error)
    }

    function Extract(): T
      requires Success?
    {
      value
    }
  }
}
